=== FILE: README.md ===
# rxjs-observable-state: the keyed cache, modelled in Dafny

`rxjs-observable-state` keeps application objects in memory. Each object sits under a key
derived from its identity: the JSON text of `object[idProperty]`, or a fixed sentinel when the
store holds a single entity. The library comes in two variants, and both are modelled here as
pure state machines. The wall clock is an explicit `now` argument in both.

- **The rxjs engine** (`src/state.ts`) keeps two tables keyed alike:
  - `subjects`, one `ReplaySubject(1)` per key;
  - `observables`, one record per key.

  Every write goes through `addToState`. The `set`, `create` and `setMultiple` operations feed
  it one emitted value at a time. Here each `ReplaySubject(1)` is its latest snapshot, and each
  emission is one transition of the tables.
- **The synchronous variant** (`src/state.js`) keeps one plain object. It maps the key of an
  identity to an item `{data, lastUpdated}`.

The files are:

| file | module | contents |
|---|---|---|
| `wrappers.dfy` | `Wrappers` | `Option` and `Result`. |
| `json.dfy` | `Json` | JavaScript values, truthiness, property reads and writes, and `JSON.stringify` for the values the cache handles. |
| `json_parse.dfy` | `JsonParse` | A JSON parser. It is used to prove that `JSON.stringify` is injective on values with no `undefined` or function inside, which makes `plain` keys collision-free. |
| `rx_keys.dfy` | `RxKeys` | Options, defaults, and key derivation for the rxjs engine. |
| `rx_cache.dfy` | `RxCache` | The two tables and every operation of the rxjs engine. |
| `rx_props.dfy` | `RxProps` | The invariants and the consequences of the code as written. |
| `emitter_cache.dfy` | `EmitterCache` | The synchronous variant. |
| `emitter_props.dfy` | `EmitterProps` | Its properties, and the session at the end of `src/state.js`. |

The rxjs engine, as written, behaves in ways the proofs make explicit:

- The record built by `initializeState` never gets a `lastUpdated`. The timestamp goes only
  into the pushed snapshot. So the expiry test in `generateStateId` always calls
  `isExpired(undefined, undefined)`.
  - In keyed mode, that call derives a key from `undefined` and throws `undefined_id`
    whenever the addressed key is already present.
  - Consequences in keyed mode: a cached entry can never be read back, `exists` never
    reports `true`, `remove` never deletes, and `getMultiple` never delivers data.
  - In single-entity mode nothing ever expires.
- `getObservableFrom` always returns an observable. So the `item_not_found`,
  `invalid_id_and_observable` and `invalid_observable` branches are dead.
- `setMultiple` hands an already-encoded key to `exisitsInState`, which encodes it again.

Two more facts about the code bear on expiry:

- The rxjs engine's default ttl is one hour (`src/state.ts:44`), but since its records are
  never stamped, nothing expires there.
- The synchronous variant's constructor never sets a ttl (`src/state.js:29-33`), so nothing
  expires there by default. Its `exisits` does not consult the ttl at all.

## Model

| member | source | states |
|---|---|---|
| Json.Stringify | src/state.ts:79-82 | `JSON.stringify` yields no text exactly for `undefined` and functions; any text it yields is non-empty. |
| Json.Field | src/state.ts:98-100 | Reading `object[idProperty]` throws exactly when the object is `null` or `undefined`; otherwise it yields the object's own property of that name, or `undefined`. |
| Json.WithField | src/state.ts:136 | Assigning `object[idProperty] = id` succeeds only on an object; afterwards the property reads `id` and every other property is unchanged. |
| JsonParse.ParseStringify | src/state.ts:79 | The JSON text of a value without `undefined` or functions inside parses back to that value. |
| JsonParse.StringifyInjective | src/state.ts:79 | Two such values have the same JSON text if and only if they are equal. |
| JsonParse.StringifyCollisions | src/state.ts:79 | Values with `undefined` inside collide: `[undefined]` and `[null]` share a text, and so do `{a: undefined}` and `{}`. |
| RxKeys.Configure | src/state.ts:40-45 | A falsy `encoding` option becomes `plain` and a falsy `ttl` becomes 3 600 000 ms; any other option value is kept. |
| RxKeys.Encode | src/state.ts:84-94 | `plain` and unrecognised encodings return the JSON text unchanged. |
| RxKeys.KeyOf | src/state.ts:75-96 | In keyed mode a falsy identity fails with `undefined_id` and one without JSON text fails with `unknown_error`, and these are the only failures. Any other identity's key is its encoded JSON text. In single-entity mode every identity gets the one sentinel key. |
| RxKeys.KeyDeterministic | src/state.ts:75-96 | Identities with the same JSON text and truthiness get the same key, under every encoding. |
| RxKeys.SingleEntityOneKey | src/state.ts:76-79 | In single-entity mode any two identities, `undefined` included, share the one key. |
| RxKeys.PlainKeysInjective | src/state.ts:79-85 | With `plain` encoding in keyed mode, two identities without `undefined` or functions inside share a key only if they are equal. |
| RxKeys.KeyOfKeyDiffers | src/state.ts:79-85 | A string key used as an identity gets its quoted JSON text as key, which always differs from the key itself. |
| RxCache.IsExpired | src/state.ts:216-224 | A timestamp argument decides: expired iff `now - lastUpdated >= ttl`. Without one, the stamp of the identity's record decides in the same way, and the call throws exactly when that key cannot be derived. Without any stamp, nothing is expired, which is always the case for unstamped records. |
| RxCache.StateId | src/state.ts:68-74 | The result is the identity's key or a failure. Where key derivation succeeds, only a present entry's expiry test can fail. Every failure is `undefined_id`, `unknown_error` or the unbounded recursion through `remove`. |
| RxCache.InitializeState | src/state.ts:111-117 | Afterwards the key has a subject and a record. An existing pair is untouched, a missing one is created empty, and no other key changes. |
| RxCache.Put | src/state.ts:53-56 | The key's subject replays the new snapshot. A record paired with a subject is kept; otherwise a fresh unstamped one is created. Other keys are unchanged. |
| RxCache.AddToState | src/state.ts:47-58 | Falsy data fails with `undefined_object`. Otherwise it fails exactly when the state id fails; on success, the key of `data[idProperty]` replays `{data, now}`. |
| RxCache.Count | src/state.ts:60-62 | The number of records, which equals the number of subjects when the tables are paired. |
| RxCache.Exists | src/state.ts:64-67 | A key-derivation failure propagates. `true` only if the key has both a record and a subject; an absent key gives `false`. |
| RxCache.Remove | src/state.ts:226-230 | A key-derivation failure propagates. On success, exactly the identity's key is deleted from both tables. |
| RxCache.Clear | src/state.ts:119-126 | Both tables are empty afterwards. |
| RxCache.SetStream | src/state.ts:232-241 | One write per emission, in order, each stamped with its arrival time. A failure stops the stream early, and it is never `invalid_observable`, since every source becomes a stream. |
| RxCache.GetItem | src/state.ts:171-184 | Never fails with `item_not_found` or `invalid_id_and_observable`. A present key answers from its stream; a missing one loads the source's values. |
| RxCache.CreateEmission | src/state.ts:132-140 | Fails with a TypeError unless the target is an object. Otherwise the emitted id is assigned to `idProperty`, other properties are kept, and the updated object is written under that id's key. |
| RxCache.WriteItem | src/state.ts:257-262 | A `null` or `undefined` item throws. A written item lands under its own key, stamped `now`. An item is skipped only when `replaceExisting` is false, and a skip leaves the tables unchanged. |
| RxCache.WriteEach | src/state.ts:256-263 | At most one write per item, each item handled at its own time. With `replaceExisting` and no failure, there are as many writes as items; `RxProps.WriteEachWritesAll` says which. |
| RxCache.SetMultipleEmission | src/state.ts:256-257 | A `null` or `undefined` emission is skipped, and a primitive or an object is taken to have no `forEach` and throws. The array case is stated by `RxProps.SetMultipleWrites`. |
| RxCache.StateIds | src/state.ts:203-205 | On success, one key per id, in input order, each the id's state id. |
| RxCache.Select | src/state.ts:204-212 | Present keys give their latest data in order. With `breakOnNotFound`, success means every key is present; a failure is `item_not_found: <json id>` for the first missing id, every earlier key being present. Without it, missing keys are dropped. |
| RxCache.GetMultiple | src/state.ts:198-214 | A non-array fails with `invalid_array`. With `breakOnNotFound`, success means one result per id, in input order. |
| RxProps.EmptyValid | src/state.ts:32-33 | A new instance has paired, unstamped, published tables with no entries. |
| RxProps.PutKeepsValid | src/state.ts:111-117 | A write keeps the tables paired and unstamped and every subject published, and the written key replays the new data. |
| RxProps.AddKeepsValid | src/state.ts:47-58 | `addToState` keeps the invariants. |
| RxProps.SetStreamKeepsValid | src/state.ts:232-242 | A subscription to `set` keeps the invariants, whether it completes or stops early. |
| RxProps.SetStreamStopsAtFailure | src/state.ts:237-241 | The failure that ends a subscription is `addToState`'s error for the first refused emission, on the tables the earlier writes left. |
| RxProps.CreateKeepsValid | src/state.ts:132-140 | A `create` emission keeps the invariants. |
| RxProps.WriteItemKeepsValid | src/state.ts:257-262 | One `setMultiple` item keeps the invariants. |
| RxProps.WriteEachKeepsValid | src/state.ts:256-263 | A whole `setMultiple` emission keeps the invariants, even when it stops at a failing item. |
| RxProps.WriteEachWritesItems | src/state.ts:256-263 | Every snapshot a `setMultiple` emission writes holds one of its items, stamped with the time that item was handled (`addToState` reads the clock per item, line 54). |
| RxProps.SetStreamLands | src/state.ts:237-241 | A subscription to `set` never loses an entry, and every value it wrote is present, under its own key, in the tables it leaves. |
| RxProps.WriteEachLands | src/state.ts:256-263 | A `setMultiple` emission never loses an entry, and every item it wrote is present, under its own key, in the tables it leaves. |
| RxProps.WriteEachWritesAll | src/state.ts:256-263 | With `replaceExisting` and no failure, the writes are exactly the items, in order, item `i` stamped with the time it was handled. |
| RxProps.SetMultipleWrites | src/state.ts:255-263 | An array emission with `replaceExisting` loses no entry, leaves every written item present under its own key, and, unless an item throws, writes every item in order. |
| RxProps.SetMultipleKeepsValid | src/state.ts:255-264 | Any `setMultiple` emission keeps the invariants. |
| RxProps.RemoveKeepsValid | src/state.ts:226-230 | `remove` keeps the invariants: one entry per key, in both tables. |
| RxProps.StateIdUnstamped | src/state.ts:68-77 | On unstamped tables, the state id is the key. The exception is keyed mode with the key present, where it is `undefined_id`. Nothing is ever evicted. |
| RxProps.KeyedNeverExists | src/state.ts:64-77 | In keyed mode `exists` never reports `true`. |
| RxProps.SingleExists | src/state.ts:64-67 | In single-entity mode, `exists` reports whether the one entry is there, whatever the identity. |
| RxProps.GuardDoubleEncodes | src/state.ts:258-259 | With `replaceExisting = false` in keyed `plain` mode, the guard looks up the quoted key `Quote(k)`, never the item's own key `k`: it throws `undefined_id` if the quoted key is present and lets the write through otherwise. |
| RxProps.KeyedGuardNeverSkips | src/state.ts:258-259 | In keyed mode the `replaceExisting = false` guard never skips an item: it writes or throws. |
| RxProps.KeyedGetNeverCached | src/state.ts:171-176 | In keyed mode `get` never answers from the cache; a present key throws `undefined_id`. |
| RxProps.KeyedGetMultipleEmpty | src/state.ts:198-214 | In keyed mode `getMultiple` either throws or delivers an empty list. |
| RxProps.SelectAbsent | src/state.ts:206-211 | With only missing keys: with `breakOnNotFound`, the error is for the first missing id; without it, the result is empty. |
| RxProps.SelectInOrder | src/state.ts:204-212 | Without `breakOnNotFound`, the result is exactly the latest data of the present keys, in input order. |
| RxProps.StateIdsFirstFailure | src/state.ts:203-205 | A key-derivation failure in `getMultiple` is the error of the first id whose derivation fails; every earlier id derives. |
| RxProps.SingleRoundTrip | src/state.ts:47-58 | Single-entity round trip: a truthy value written to a valid store gives one entry. A later `get` with any identity replays the value, and `exists` is `true`. |
| RxProps.OneKeyCount | src/state.ts:76-79 | A single-entity store holds at most one entry, and exactly one once its key is present. |
| RxProps.KeyedFirstWrite | src/state.ts:47-58 | A keyed write under a new key succeeds, adds one entry, and that entry replays the data. |
| RxProps.GetWithoutSource | src/state.ts:171-178 | For an identity whose key derives and is absent, `get` without a source loads the value `undefined`; its write is refused with `undefined_object` and the tables are unchanged. |
| RxProps.KeyedSetThenGet | src/state.ts:232-242 | Keyed session: `set({id: 1})` stores one entry, and `get(1)` then throws `undefined_id`. |
| RxProps.RemoveAbsent | src/state.ts:226-230 | Removing an identity whose key is absent changes nothing. |
| RxProps.KeyedRemoveNeverDeletes | src/state.ts:226-230 | In keyed mode `remove` never deletes: a present key throws `undefined_id` and an absent one is a no-op. |
| RxProps.RemoveThenAbsent | src/state.ts:226-230 | After a successful `remove`, `exists` is `false` and the count did not grow. |
| RxProps.ClearAllEmpties | src/state.ts:119-130 | `clear` and `setMultiple(…, clearAll)` leave a count of 0 and valid tables. |
| EmitterCache.Construct | src/state.js:29-33 | A new instance has the given `idProperty` and no ttl. |
| EmitterCache.Key | src/state.js:60 | The key is the identity's JSON text, or `undefined` when it has none. |
| EmitterCache.InitializeState | src/state.js:48-53 | A missing key gets an empty item; a present one is untouched, as is every other key. |
| EmitterCache.Set | src/state.js:55-67 | Fails with `undefined_object` exactly for a falsy object. Otherwise the key of `object[idProperty]` holds `{object, now}` and nothing else changes. |
| EmitterCache.IsExpired | src/state.js:69-86 | Never expired without a ttl. A timestamp argument decides by `now - lastUpdated >= ttl`. A truthy identity without one throws if its item is missing. |
| EmitterCache.Count | src/state.js:88-90 | The number of stored keys. |
| EmitterCache.Exists | src/state.js:92-95 | `true` exactly when the identity's key holds an item; `EmitterProps.SetThenGet` and `EmitterProps.RemoveThenAbsent` relate it to `set` and `remove`. |
| EmitterCache.Remove | src/state.js:97-101 | Exactly the identity's key is deleted; the other items are unchanged. |
| EmitterCache.Clear | src/state.js:103-108 | No item is left. |
| EmitterCache.GetItem | src/state.js:110-112 | The identity's item if its key is present; absent otherwise. |
| EmitterCache.KeptData | src/state.js:119-121 | Every kept item's data is in the result, and every element of the result is a kept item's data. |
| EmitterCache.GetAll | src/state.js:118-122 | The result holds exactly the data of the items whose data is truthy and not expired. |
| EmitterCache.GetAllIds | src/state.js:114-116 | One identity per datum `getAll` returns, in the same order. |
| EmitterCache.GetMultiple | src/state.js:124-126 | A non-array throws. Otherwise one result per id, in input order: the item for a present key, absent for a missing one. |
| EmitterProps.SetKeepsStored | src/state.js:55-67 | After writes, every item holds a truthy object and a timestamp, under that object's own key; `EmitterProps.SetThenGet` states which time. |
| EmitterProps.RemoveKeepsStored | src/state.js:97-101 | `remove` keeps that invariant. |
| EmitterProps.SetThenGet | src/state.js:60-63 | Round trip: after `set(x)`, `get(x[idProperty])` is `{x, now}` and `exisits` is `true`. |
| EmitterProps.SetCount | src/state.js:48-53 | `set` grows the count by one exactly when the key was new. |
| EmitterProps.SetReplaces | src/state.js:60-63 | A second write under the same key replaces the item wholesale and leaves the count unchanged. |
| EmitterProps.ReplaceDropsFields | src/state.js:63 | Writing `{id: 1, b: 3}` over `{id: 1, a: 1, b: 2}` leaves `{id: 1, b: 3}`: no merge. |
| EmitterProps.RemoveAbsent | src/state.js:97-99 | Removing an absent identity is a no-op. |
| EmitterProps.RemoveThenAbsent | src/state.js:92-99 | Afterwards `exisits` is `false`; the count dropped by one exactly when the identity was present. |
| EmitterProps.ClearEmpties | src/state.js:103-108 | After `clear` the count is 0 and nothing exists. |
| EmitterProps.DefaultNeverExpires | src/state.js:29-33 | With the constructor's settings, `isExpired` is `false` for every input. |
| EmitterProps.ExpiryOfStoredItem | src/state.js:69-95 | With a ttl set, a stored item with a truthy identity is expired iff `now - write time >= ttl`, while `exisits` keeps reporting it. |
| EmitterProps.FalsyIdNeverExpires | src/state.js:69-80 | An item stored under a falsy identity (`0`, `""`, `false`) is never reported expired by `isExpired(id)`, whatever its age, and stays present with its write time. |
| EmitterProps.KeptAll | src/state.js:118-122 | Without a ttl, every item's data is kept, in order. |
| EmitterProps.GetAllWithoutTtl | src/state.js:118-122 | Without a ttl, `getAll` returns every item's data in enumeration order, one per item. |
| EmitterProps.EnumerationCount | src/state.js:88-90 | An enumeration of the items has exactly `count` entries. |
| EmitterProps.GetAllIdsPresent | src/state.js:114-116 | Every identity `getAllIds` lists addresses a present item. |
| EmitterProps.DemoWrites | src/state.js:149-152 | The file's three writes leave items under the keys `1`, `2` and `3`. |
| EmitterProps.DemoRemoval | src/state.js:154-160 | On that state, `count` is 3, `exisits(1)` is `true`, and `remove(1)` leaves keys `2` and `3`. |
| EmitterProps.DemoSession | src/state.js:149-166 | The file's session: count 3, exists, remove, not exists, count 2, `get(2)` gives the second item, and count 0 after `clear`. |
| EmitterProps.WriteReadRemoveSession | src/state.js:55-112 | `set({id: 1, name: "a"})` then `get(1)` gives that object. After `remove(1)`, `exisits(1)` is `false` and the count is 0. |

## Left out

- rxjs scheduling: when a subscription happens, the laziness of `tap`, and the subscribers of
  a `ReplaySubject`. Each emitted value is one transition of the tables, so interleaving
  between subscriptions is not modelled.
- `RxCache.GetMultiple` gives the values `forkJoin` would combine. The real `forkJoin` emits
  only once every inner stream completes. Entry streams never complete, and an empty list
  completes without a value, so the model says what would be combined, not when.
- `filter`, `getAll` and `getAllIds` of the rxjs engine (`src/state.ts:146-196`) are not
  modelled. They are `forkJoin` compositions over streams that never complete. Note that
  `filter`'s predicate at line 152 keeps only *expired* snapshots, those written at least
  `ttl` ago.
- Source sniffing (`isPromise`, `isObservable`) is not modelled. A source arrives already
  classified as a value, a promise or a stream. A rejected promise, and a stream's own error or
  completion, are not modelled.
- The encoders behind `base64`, `md5` and `sha1` are foreign code, so they are parameters.
  `btoa` throwing on characters beyond Latin-1 is not modelled.
- Only integer numbers are modelled. Fractions, exponent notation, `NaN`, `Infinity` and `-0`
  are left out, and so are the `toJSON` methods and cycles that `JSON.stringify` handles or
  rejects.
- `Json.Field`: properties of primitives, arrays and functions (such as `length`) read as
  `undefined`, and so do names a plain object inherits from `Object.prototype` (`constructor`,
  `toString`, `__proto__`, …). Only an object's own properties are modelled, so an
  `idProperty` naming an inherited member derives a different key than in JavaScript.
- `Json.WithField`: an assignment to a property of an array or a function is refused, which
  is weaker than JavaScript, where it succeeds.
- `EmitterCache.GetMultiple`: an object that has its own `map` method is treated as a
  non-array, so the model throws a TypeError where JavaScript would call that method.
- `RxCache.SetMultipleEmission`: an emitted non-array object that has its own `forEach` method
  is treated as having none, so the model throws a TypeError where JavaScript would call that
  method. Only arrays are iterated.
- `Json.Stringify` differs from `JSON.stringify` in two ways. A number beyond 2^53 is printed
  with all its digits, where JavaScript prints the shortest text that reads back as the same
  double (`2**60` gives `1152921504606847000`). An object's properties are printed in the
  order of `props`, where JavaScript prints array-index property names first, in ascending
  order. Keys of such identities therefore differ from the real ones.
- `RxCache.WriteEach`: each item of a `setMultiple` emission gets one clock reading. The
  source reads the clock separately in each key derivation and in `addToState`
  (`src/state.ts:54`); for one item these readings are taken to be the same time.
- Object identity and aliasing are not modelled. The stored object is the caller's object;
  `create` mutates it, and `addToState` shallow-copies the snapshot. Later mutations by the
  caller are not modelled. In particular, a `create` whose source emits several ids assigns
  each id to the one caller object again (`src/state.ts:136`). In JavaScript the data stored
  under an earlier id's key therefore shows the latest id. The model stores a separate value
  per emission, each holding the id it was written with.
- `EmitterCache.GetAll`: the enumeration order of `Object.values` is a parameter. In
  JavaScript, array-index keys come first in ascending order, then the other keys in insertion
  order.
- The change notifications of the synchronous variant (`stateChanged`, `EventEmitter`,
  `EventTarget`, `CustomEvent`) and the demo's console output are not modelled. They do not
  affect the state.
- The persistence callbacks and data-source type declarations are not part of this model;
  they contain no logic.

=== FILE: emitter_cache.dfy ===
/** The synchronous variant (`src/state.js`): one plain object maps the JSON
    text of an identity to an item `{data, lastUpdated}`.

    A JavaScript property key is a string, so an identity without JSON text
    lands under the key `undefined`. The clock is the `now` argument; the
    change notifications are not modelled. */
module EmitterCache {
  import opened Wrappers
  import opened Json

  /** The two ways an operation of this variant fails. */
  datatype Error =
    | UndefinedObject  // 'undefined_object'
    | TypeError        // a property read on `undefined`, or `map` on a non-array

  /** An `ItemState`; `lastUpdated` is `None` until the first write. */
  datatype Item = Item(data: Json, lastUpdated: Option<int>)

  type State = map<string, Item>

  /** The instance's settings. The constructor only sets `idProperty`, so a
      fresh instance has no `ttl`; `ttl` is a public field a caller may
      assign afterwards. */
  datatype Config = Config(idProperty: string, ttl: Option<int>)

  function Construct(idProperty: string): (c: Config)
    ensures c.idProperty == idProperty && !TtlEnabled(c)
  {
    Config(idProperty, None)
  }

  /** `!!this.ttl`. */
  predicate TtlEnabled(c: Config) {
    c.ttl.Some? && c.ttl.value != 0
  }

  /** The property key of an identity: `JSON.stringify(id)` converted to a
      string. */
  function Key(id: Json): (k: string)
    ensures Stringify(id).Some? ==> k == Stringify(id).value
    ensures Stringify(id).None? ==> k == "undefined"
  {
    TextOrUndefined(id)
  }

  /** The identity of an object: `object[idProperty]`. */
  function IdOf(c: Config, obj: Json): Json
  {
    Get(obj, c.idProperty)
  }

  /** `initializeState`: a key without an item gets an empty one. */
  function InitializeState(s: State, k: string): (r: State)
    ensures k in r && r.Keys == s.Keys + {k}
    ensures k in s ==> r == s
    ensures k !in s ==> r[k] == Item(Undefined, None)
    ensures forall j :: j != k && j in s ==> r[j] == s[j]
  {
    if k in s then s else s[k := Item(Undefined, None)]
  }

  /** `set(object)`: a falsy object is refused with `undefined_object`;
      otherwise the item under the object's key is replaced as a whole by
      the object and the time of the write. */
  function Set(c: Config, s: State, now: int, obj: Json): (r: Result<State, Error>)
    ensures r.Failure? <==> !Truthy(obj)
    ensures r.Failure? ==> r.error == UndefinedObject
    ensures r.Success? ==> var k := Key(IdOf(c, obj));
              && r.value.Keys == s.Keys + {k}
              && r.value[k] == Item(obj, Some(now))
              && (forall j :: j != k && j in s ==> r.value[j] == s[j])
  {
    if !Truthy(obj) then Failure(UndefinedObject)
    else
      var k := Key(IdOf(c, obj));
      var s1 := InitializeState(s, k);
      Success(s1[k := Item(obj, Some(now))])
  }

  /** `isExpired(id, lastUpdated)`: never without a ttl; otherwise the
      timestamp is the argument or, for a truthy identity, the one of its
      item (reading it from a missing item throws); without a timestamp
      nothing is expired. */
  function IsExpired(c: Config, s: State, now: int, id: Json, lastUpdated: Option<int>): (r: Result<bool, Error>)
    ensures !TtlEnabled(c) ==> r == Success(false)
    ensures TtlEnabled(c) && lastUpdated.Some? ==> r == Success(now - lastUpdated.value >= c.ttl.value)
    ensures r.Failure? <==> TtlEnabled(c) && lastUpdated.None? && Truthy(id) && Key(id) !in s
    ensures r.Failure? ==> r.error == TypeError
    ensures !Truthy(id) && lastUpdated.None? ==> r == Success(false)
  {
    if !TtlEnabled(c) then Success(false)
    else
      var prev :- if lastUpdated.Some? then Success(lastUpdated)
                  else if Truthy(id) then (if Key(id) in s then Success(s[Key(id)].lastUpdated) else Failure(TypeError))
                  else Success(None);
      Success(prev.Some? && now - prev.value >= c.ttl.value)
  }

  /** `count`. */
  function Count(s: State): (n: nat)
    ensures n == |s.Keys|
  {
    |s|
  }

  /** `exisits(id)`: whether the identity's key holds an item. */
  function Exists(s: State, id: Json): (b: bool)
    ensures b <==> Key(id) in s
  {
    Key(id) in s
  }

  /** `remove(id)`: deletes the identity's item, if any. */
  function Remove(s: State, id: Json): (r: State)
    ensures r.Keys == s.Keys - {Key(id)}
    ensures forall j :: j in r ==> r[j] == s[j]
  {
    s - {Key(id)}
  }

  /** `clear`. */
  function Clear(s: State): (r: State)
    ensures |r| == 0
  {
    map[]
  }

  /** `get(id)`: the identity's item, or `None` for `undefined`. */
  function GetItem(s: State, id: Json): (r: Option<Item>)
    ensures r.Some? <==> Key(id) in s
    ensures r.Some? ==> r.value == s[Key(id)]
  {
    if Key(id) in s then Some(s[Key(id)]) else None
  }

  /** `order` lists every key of `s` once: the order in which
      `Object.values` visits the items. */
  predicate Enumerates(order: seq<string>, s: State) {
    && (forall i :: 0 <= i < |order| ==> order[i] in s)
    && (forall k :: k in s ==> k in order)
    && (forall i, j :: 0 <= i < j < |order| ==> order[i] != order[j])
  }

  /** The filter of `getAll`: truthy data, not expired by its own timestamp. */
  predicate Kept(c: Config, now: int, item: Item) {
    Truthy(item.data) && !(TtlEnabled(c) && item.lastUpdated.Some? && now - item.lastUpdated.value >= c.ttl.value)
  }

  /** The data of the kept items among the keys `ks`, in their order. */
  function KeptData(c: Config, s: State, now: int, ks: seq<string>): (r: seq<Json>)
    requires forall i :: 0 <= i < |ks| ==> ks[i] in s
    ensures |r| <= |ks|
    ensures forall i :: 0 <= i < |r| ==> Truthy(r[i])
    ensures forall i :: 0 <= i < |ks| && Kept(c, now, s[ks[i]]) ==> s[ks[i]].data in r
    ensures forall x :: x in r ==> exists i :: 0 <= i < |ks| && Kept(c, now, s[ks[i]]) && s[ks[i]].data == x
  {
    if |ks| == 0 then []
    else
      var item := s[ks[0]];
      var expired := IsExpired(c, s, now, Undefined, item.lastUpdated);
      var rest := KeptData(c, s, now, ks[1..]);
      if Truthy(item.data) && !expired.value then [item.data] + rest else rest
  }

  /** `getAll()`: the data of every item that is truthy and not expired, in
      the enumeration order of the items. */
  function GetAll(c: Config, s: State, now: int, order: seq<string>): (r: seq<Json>)
    requires Enumerates(order, s)
    ensures forall k :: k in s && Kept(c, now, s[k]) ==> s[k].data in r
    ensures forall x :: x in r ==> exists k :: k in s && Kept(c, now, s[k]) && s[k].data == x
  {
    KeptData(c, s, now, order)
  }

  /** `getAllIds()`: the identity of each datum `getAll` returns. */
  function GetAllIds(c: Config, s: State, now: int, order: seq<string>): (r: seq<Json>)
    requires Enumerates(order, s)
    ensures |r| == |GetAll(c, s, now, order)|
    ensures forall i :: 0 <= i < |r| ==> r[i] == IdOf(c, GetAll(c, s, now, order)[i])
  {
    var all := GetAll(c, s, now, order);
    seq(|all|, i requires 0 <= i < |all| => IdOf(c, all[i]))
  }

  /** `getMultiple(ids)`: the item of each identity in order, `None` where
      there is none; anything but an array has no `map`. */
  function GetMultiple(s: State, ids: Json): (r: Result<seq<Option<Item>>, Error>)
    ensures !ids.Arr? <==> r == Failure(TypeError)
    ensures r.Success? ==> |r.value| == |ids.elems|
    ensures r.Success? ==> forall i :: 0 <= i < |ids.elems| ==> (r.value[i].Some? <==> Key(ids.elems[i]) in s)
    ensures r.Success? ==> forall i :: 0 <= i < |ids.elems| && r.value[i].Some? ==> r.value[i].value == s[Key(ids.elems[i])]
  {
    if !ids.Arr? then Failure(TypeError)
    else Success(seq(|ids.elems|, i requires 0 <= i < |ids.elems| => GetItem(s, ids.elems[i])))
  }
}

=== FILE: emitter_props.dfy ===
/** Properties of the synchronous variant: what a write leaves behind, what
    the queries see afterwards, and the session the file itself runs. */
module EmitterProps {
  import opened Wrappers
  import opened Json
  import opened EmitterCache

  /** What every write leaves in the state: each item holds a truthy object
      and a timestamp, under the key of that object's own identity. Which
      time the stamp is, is stated by `SetThenGet`. */
  predicate Stored(c: Config, s: State) {
    forall k :: k in s ==> Truthy(s[k].data) && s[k].lastUpdated.Some? && Key(IdOf(c, s[k].data)) == k
  }

  lemma EmptyStored(c: Config)
    ensures Stored(c, map[])
  {
  }

  lemma SetKeepsStored(c: Config, s: State, now: int, obj: Json)
    requires Stored(c, s) && Set(c, s, now, obj).Success?
    ensures Stored(c, Set(c, s, now, obj).value)
  {
  }

  lemma RemoveKeepsStored(c: Config, s: State, id: Json)
    requires Stored(c, s)
    ensures Stored(c, Remove(s, id))
  {
  }

  // ----------------------------------------------------------------- writes

  /** Round trip: after `set(x)`, `get(x[idProperty])` returns the item
      holding `x` and the time of the write, and `exisits` reports it. */
  lemma SetThenGet(c: Config, s: State, now: int, obj: Json)
    requires Truthy(obj)
    ensures Set(c, s, now, obj).Success?
    ensures GetItem(Set(c, s, now, obj).value, IdOf(c, obj)) == Some(Item(obj, Some(now)))
    ensures Exists(Set(c, s, now, obj).value, IdOf(c, obj))
  {
  }

  /** `set` grows the count by one exactly when the key was new. */
  lemma SetCount(c: Config, s: State, now: int, obj: Json)
    requires Set(c, s, now, obj).Success?
    ensures Count(Set(c, s, now, obj).value) == Count(s) + (if Key(IdOf(c, obj)) in s then 0 else 1)
  {
    var k := Key(IdOf(c, obj));
    var s' := Set(c, s, now, obj).value;
    if k in s {
      assert s'.Keys == s.Keys;
    } else {
      assert s'.Keys == s.Keys + {k};
      assert |s.Keys + {k}| == |s.Keys| + 1;
    }
  }

  /** A second write under the same key replaces the object: no property of
      the first write survives unless the second object has it too. */
  lemma SetReplaces(c: Config, s: State, t1: int, t2: int, first: Json, second: Json)
    requires Truthy(first) && Truthy(second) && Key(IdOf(c, first)) == Key(IdOf(c, second))
    ensures var s2 := Set(c, Set(c, s, t1, first).value, t2, second).value;
            s2[Key(IdOf(c, second))] == Item(second, Some(t2))
    ensures Count(Set(c, Set(c, s, t1, first).value, t2, second).value) == Count(Set(c, s, t1, first).value)
  {
    SetCount(c, Set(c, s, t1, first).value, t2, second);
  }

  /** The replace-write example: `{id: 1, a: 1, b: 2}` overwritten by
      `{id: 1, b: 3}` leaves `{id: 1, b: 3}`, without `a`. */
  lemma ReplaceDropsFields(s: State, t1: int, t2: int)
    ensures var c := Construct("id");
            var first := Obj([Prop("id", Num(1)), Prop("a", Num(1)), Prop("b", Num(2))]);
            var second := Obj([Prop("id", Num(1)), Prop("b", Num(3))]);
            var s2 := Set(c, Set(c, s, t1, first).value, t2, second).value;
            GetItem(s2, Num(1)) == Some(Item(second, Some(t2))) &&
            Get(GetItem(s2, Num(1)).value.data, "a") == Undefined
  {
    var c := Construct("id");
    var first := Obj([Prop("id", Num(1)), Prop("a", Num(1)), Prop("b", Num(2))]);
    var second := Obj([Prop("id", Num(1)), Prop("b", Num(3))]);
    assert IdOf(c, first) == Num(1) && IdOf(c, second) == Num(1);
    SetReplaces(c, s, t1, t2, first, second);
  }

  // ---------------------------------------------------------------- deletes

  /** `remove` of an absent key is a no-op. */
  lemma RemoveAbsent(s: State, id: Json)
    requires !Exists(s, id)
    ensures Remove(s, id) == s
  {
    assert Remove(s, id).Keys == s.Keys;
  }

  /** After `remove(id)` the identity is absent and the count dropped by one
      exactly when it was present. */
  lemma RemoveThenAbsent(s: State, id: Json)
    ensures !Exists(Remove(s, id), id)
    ensures Count(Remove(s, id)) == Count(s) - (if Exists(s, id) then 1 else 0)
  {
    var k := Key(id);
    if k in s {
      assert s.Keys == Remove(s, id).Keys + {k};
    } else {
      RemoveAbsent(s, id);
    }
  }

  lemma ClearEmpties(c: Config, s: State, id: Json)
    ensures Count(Clear(s)) == 0 && !Exists(Clear(s), id) && Stored(c, Clear(s))
  {
  }

  // ------------------------------------------------------------------- TTL

  /** The constructor never sets a ttl, so nothing ever expires. */
  lemma DefaultNeverExpires(idProperty: string, s: State, now: int, id: Json, lastUpdated: Option<int>)
    ensures IsExpired(Construct(idProperty), s, now, id, lastUpdated) == Success(false)
  {
  }

  /** With a ttl set, an identity's stored item is expired once `ttl`
      milliseconds have passed since its write; `exisits` does not consult
      the ttl, and keeps reporting the item. */
  lemma ExpiryOfStoredItem(c: Config, s: State, t0: int, now: int, obj: Json)
    requires TtlEnabled(c) && Truthy(obj) && Truthy(IdOf(c, obj))
    ensures var s' := Set(c, s, t0, obj).value;
            IsExpired(c, s', now, IdOf(c, obj), None) == Success(now - t0 >= c.ttl.value) &&
            Exists(s', IdOf(c, obj))
  {
    SetThenGet(c, s, t0, obj);
  }

  /** `isExpired(id)` looks an item up only for a truthy identity, so an item
      stored under a falsy identity (`0`, `""`, `false`) is never reported
      expired through its identity, however old its stamp; it stays
      present. */
  lemma FalsyIdNeverExpires(c: Config, s: State, t0: int, now: int, obj: Json)
    requires Truthy(obj) && !Truthy(IdOf(c, obj))
    ensures var s' := Set(c, s, t0, obj).value;
            && IsExpired(c, s', now, IdOf(c, obj), None) == Success(false)
            && Exists(s', IdOf(c, obj))
            && GetItem(s', IdOf(c, obj)) == Some(Item(obj, Some(t0)))
  {
    SetThenGet(c, s, t0, obj);
  }

  // ---------------------------------------------------------------- queries

  /** Without a ttl, `getAll` returns the data of every item, in
      enumeration order. */
  lemma {:induction false} KeptAll(c: Config, s: State, now: int, ks: seq<string>)
    requires !TtlEnabled(c) && Stored(c, s)
    requires forall i :: 0 <= i < |ks| ==> ks[i] in s
    ensures |KeptData(c, s, now, ks)| == |ks|
    ensures forall i :: 0 <= i < |ks| ==> KeptData(c, s, now, ks)[i] == s[ks[i]].data
  {
    if |ks| > 0 {
      KeptAll(c, s, now, ks[1..]);
      var rest := KeptData(c, s, now, ks[1..]);
      assert KeptData(c, s, now, ks) == [s[ks[0]].data] + rest;
    }
  }

  lemma GetAllWithoutTtl(c: Config, s: State, now: int, order: seq<string>)
    requires !TtlEnabled(c) && Stored(c, s) && Enumerates(order, s)
    ensures |GetAll(c, s, now, order)| == |order| == Count(s)
    ensures forall i :: 0 <= i < |order| ==> GetAll(c, s, now, order)[i] == s[order[i]].data
  {
    KeptAll(c, s, now, order);
    EnumerationCount(order, s);
  }

  /** An enumeration has one entry per item. */
  lemma {:induction false} EnumerationCount(order: seq<string>, s: State)
    requires Enumerates(order, s)
    ensures |order| == Count(s)
    decreases |order|
  {
    if |order| == 0 {
      assert s.Keys == {};
    } else {
      var k := order[0];
      var rest := order[1..];
      var s' := s - {k};
      forall j | j in s'
        ensures j in rest
      {
        var i :| 0 <= i < |order| && order[i] == j;
        assert i != 0;
        assert rest[i - 1] == j;
      }
      EnumerationCount(rest, s');
      assert s.Keys == s'.Keys + {k};
    }
  }

  /** Every identity `getAllIds` lists addresses an item that is present. */
  lemma GetAllIdsPresent(c: Config, s: State, now: int, order: seq<string>)
    requires Stored(c, s) && Enumerates(order, s)
    ensures forall id :: id in GetAllIds(c, s, now, order) ==> Exists(s, id)
  {
    var all := GetAll(c, s, now, order);
    var ids := GetAllIds(c, s, now, order);
    forall id | id in ids
      ensures Exists(s, id)
    {
      var i :| 0 <= i < |ids| && ids[i] == id;
      assert all[i] in all;
      var k :| k in s && Kept(c, now, s[k]) && s[k].data == all[i];
      assert Key(IdOf(c, s[k].data)) == k;
    }
  }

  // -------------------------------------------------------------- sessions

  const DemoFirst: Json := Obj([Prop("id", Num(1)), Prop("test", Str("test1"))])
  const DemoSecond: Json := Obj([Prop("id", Num(2)), Prop("test", Str("test2"))])
  const DemoThird: Json := Obj([Prop("id", Num(3)), Prop("test", Str("test3"))])

  /** A write of a truthy object whose key is known. */
  lemma SetAt(c: Config, s: State, now: int, obj: Json, k: string)
    requires Truthy(obj) && Key(IdOf(c, obj)) == k
    ensures Set(c, s, now, obj) == Success(s[k := Item(obj, Some(now))])
  {
    var r := Set(c, s, now, obj).value;
    var m := s[k := Item(obj, Some(now))];
    assert r.Keys == m.Keys;
    assert forall j :: j in r ==> r[j] == m[j];
    assert r == m;
    assert Set(c, s, now, obj).Success?;
  }

  /** The keys and identities of the session's objects. */
  lemma DemoKeys(c: Config)
    requires c.idProperty == "id"
    ensures Key(Num(1)) == "1" && Key(Num(2)) == "2" && Key(Num(3)) == "3"
    ensures IdOf(c, DemoFirst) == Num(1) && IdOf(c, DemoSecond) == Num(2) && IdOf(c, DemoThird) == Num(3)
  {
  }

  /** The session at the end of `src/state.js`: three writes, then
      `count` 3, `exisits(1)` true, `remove(1)`, `exisits(1)` false,
      `count` 2, `get(2)` the second item, `clear`, `count` 0. */
  lemma DemoSession(t1: int, t2: int, t3: int)
    ensures var c := Construct("id");
            var s3 := Set(c, Set(c, Set(c, map[], t1, DemoFirst).value, t2, DemoSecond).value, t3, DemoThird).value;
            var s4 := Remove(s3, Num(1));
            && Count(s3) == 3
            && Exists(s3, Num(1))
            && !Exists(s4, Num(1))
            && Count(s4) == 2
            && GetItem(s4, Num(2)) == Some(Item(DemoSecond, Some(t2)))
            && Count(Clear(s4)) == 0
  {
    var c := Construct("id");
    DemoKeys(c);
    DemoWrites(t1, t2, t3);
    DemoRemoval(t1, t2, t3);
  }

  /** `remove(1)` on the state after the three writes. */
  lemma DemoRemoval(t1: int, t2: int, t3: int)
    ensures var s3 := map["1" := Item(DemoFirst, Some(t1)), "2" := Item(DemoSecond, Some(t2)), "3" := Item(DemoThird, Some(t3))];
            && Count(s3) == 3 && Exists(s3, Num(1))
            && Remove(s3, Num(1)) == map["2" := Item(DemoSecond, Some(t2)), "3" := Item(DemoThird, Some(t3))]
  {
    DemoKeys(Construct("id"));
    var s3 := map["1" := Item(DemoFirst, Some(t1)), "2" := Item(DemoSecond, Some(t2)), "3" := Item(DemoThird, Some(t3))];
    assert s3.Keys == {"1", "2", "3"};
  }

  /** The state after the session's three writes. */
  lemma DemoWrites(t1: int, t2: int, t3: int)
    ensures var c := Construct("id");
            Set(c, Set(c, Set(c, map[], t1, DemoFirst).value, t2, DemoSecond).value, t3, DemoThird).value ==
              map["1" := Item(DemoFirst, Some(t1)), "2" := Item(DemoSecond, Some(t2)), "3" := Item(DemoThird, Some(t3))]
  {
    var c := Construct("id");
    DemoKeys(c);
    SetAt(c, map[], t1, DemoFirst, "1");
    var s1 := map["1" := Item(DemoFirst, Some(t1))];
    SetAt(c, s1, t2, DemoSecond, "2");
    var s2 := s1["2" := Item(DemoSecond, Some(t2))];
    SetAt(c, s2, t3, DemoThird, "3");
  }

  /** A store with `idProperty = "id"` and no ttl: `set({id: 1, name: "a"})`,
      `get(1)` returns the item holding that object, then after `remove(1)`,
      `exisits(1)` is false and `count` is 0. */
  lemma WriteReadRemoveSession(now: int)
    ensures var c := Construct("id");
            var x := Obj([Prop("id", Num(1)), Prop("name", Str("a"))]);
            var s1 := Set(c, map[], now, x).value;
            var s2 := Remove(s1, Num(1));
            && GetItem(s1, Num(1)) == Some(Item(x, Some(now)))
            && !Exists(s2, Num(1))
            && Count(s2) == 0
  {
    var c := Construct("id");
    var x := Obj([Prop("id", Num(1)), Prop("name", Str("a"))]);
    assert IdOf(c, x) == Num(1);
    SetThenGet(c, map[], now, x);
    var s1 := Set(c, map[], now, x).value;
    SetCount(c, map[], now, x);
    RemoveThenAbsent(s1, Num(1));
  }
}

=== FILE: json.dfy ===
/** JavaScript values as the cache sees them, and `JSON.stringify` on them.

    Both cache variants derive an entry's key from the JSON text of an
    identity. Numbers are integers (no fractions, no exponent form, no NaN),
    printed with all their digits; every value JSON has no text for (a
    function, a symbol) is `Opaque`; an object's properties are printed in
    the order of its `props`. */
module Json {
  import opened Wrappers

  datatype Json =
    | Undefined
    | Opaque              // a function or symbol: truthy, but without JSON text
    | Null
    | Bool(b: bool)
    | Num(n: int)
    | Str(s: string)
    | Arr(elems: seq<Json>)
    | Obj(props: seq<Prop>)  // own enumerable properties in insertion order

  datatype Prop = Prop(name: string, value: Json)

  /** JavaScript truthiness (`!!v`). */
  predicate Truthy(v: Json) {
    match v
    case Undefined => false
    case Null => false
    case Bool(b) => b
    case Num(n) => n != 0
    case Str(s) => s != ""
    case _ => true
  }

  /** The value of the first property called `name`, or `Undefined`. */
  function Lookup(ps: seq<Prop>, name: string): (r: Json)
    ensures r != Undefined ==> exists i :: 0 <= i < |ps| && ps[i].name == name && ps[i].value == r
    ensures (forall i :: 0 <= i < |ps| ==> ps[i].name != name) ==> r == Undefined
  {
    if |ps| == 0 then Undefined
    else if ps[0].name == name then ps[0].value
    else Lookup(ps[1..], name)
  }

  /** `v[name]` for a value that is not `null` or `undefined`. Properties of
      primitives, arrays and functions (such as `length`) are not modelled and
      read as `undefined`. */
  function Get(v: Json, name: string): Json
  {
    match v
    case Obj(ps) => Lookup(ps, name)
    case _ => Undefined
  }

  /** Property read `v[name]`; `None` is the TypeError of reading a property of
      `null` or `undefined`. */
  function Field(v: Json, name: string): (r: Option<Json>)
    ensures r.None? <==> v == Undefined || v == Null
    ensures r.Some? ==> r.value == Get(v, name)
  {
    if v == Undefined || v == Null then None else Some(Get(v, name))
  }

  /** `ps` with the first property called `name` set to `x`, or with
      `name: x` appended when there is none (JavaScript assignment order). */
  function Assign(ps: seq<Prop>, name: string, x: Json): (r: seq<Prop>)
    ensures Lookup(r, name) == x
    ensures forall other :: other != name ==> Lookup(r, other) == Lookup(ps, other)
  {
    if |ps| == 0 then [Prop(name, x)]
    else if ps[0].name == name then [Prop(name, x)] + ps[1..]
    else [ps[0]] + Assign(ps[1..], name, x)
  }

  /** Property write `v[name] = x` in strict mode; `None` is the TypeError
      thrown for `null`, `undefined` and primitives. Arrays and functions are
      also refused here (see the README). */
  function WithField(v: Json, name: string, x: Json): (r: Option<Json>)
    ensures r.Some? <==> v.Obj?
    ensures r.Some? ==> r.value.Obj? && Get(r.value, name) == x
    ensures r.Some? ==> forall other :: other != name ==> Get(r.value, other) == Get(v, other)
  {
    match v
    case Obj(ps) => Some(Obj(Assign(ps, name, x)))
    case _ => None
  }

  // ---------------------------------------------------------------- text

  function Digit(d: int): char
    requires 0 <= d < 10
  {
    "0123456789"[d]
  }

  /** Decimal text of a natural number, without leading zeros. */
  function NatText(n: nat): (r: string)
    ensures |r| > 0
    decreases n
  {
    if n < 10 then [Digit(n)] else NatText(n / 10) + [Digit(n % 10)]
  }

  /** `String(n)` for an integer `n`. */
  function IntText(n: int): (r: string)
    ensures |r| > 0
  {
    if n < 0 then "-" + NatText(-n) else NatText(n)
  }

  function HexDigit(d: int): char
    requires 0 <= d < 16
  {
    "0123456789abcdef"[d]
  }

  /** The JSON text of one string character: the two-character escapes, a
      lower-case `\u00XX` for the remaining control characters, the character
      itself otherwise. */
  function EscapeChar(c: char): (r: string)
    ensures |r| > 0
  {
    if c == '"' then "\\\""
    else if c == '\\' then "\\\\"
    else if c as int == 0x08 then "\\b"
    else if c as int == 0x0C then "\\f"
    else if c == '\n' then "\\n"
    else if c == '\r' then "\\r"
    else if c == '\t' then "\\t"
    else if (c as int) < 0x20 then "\\u00" + [HexDigit(c as int / 16), HexDigit(c as int % 16)]
    else [c]
  }

  function QuoteBody(s: string): string
  {
    if |s| == 0 then "" else EscapeChar(s[0]) + QuoteBody(s[1..])
  }

  /** `JSON.stringify` of a string. */
  function Quote(s: string): (r: string)
    ensures |r| >= |s| + 2
    ensures r[0] == '"' && r[|r| - 1] == '"'
  {
    QuoteBodyLength(s);
    "\"" + QuoteBody(s) + "\""
  }

  lemma QuoteBodyLength(s: string)
    ensures |QuoteBody(s)| >= |s|
  {
  }

  /** Parts joined with commas, as `Array.prototype.join(",")` does. */
  function Join(parts: seq<string>): string
  {
    if |parts| == 0 then "" else parts[0] + JoinTail(parts[1..])
  }

  function JoinTail(parts: seq<string>): string
  {
    if |parts| == 0 then "" else "," + parts[0] + JoinTail(parts[1..])
  }

  /** `JSON.stringify(v)`; `None` is the `undefined` it returns for values
      without JSON text. */
  function Stringify(v: Json): (r: Option<string>)
    ensures r.None? <==> v == Undefined || v == Opaque
    ensures r.Some? ==> |r.value| > 0
    decreases v, 0
  {
    match v
    case Undefined => None
    case Opaque => None
    case Null => Some("null")
    case Bool(b) => Some(if b then "true" else "false")
    case Num(n) => Some(IntText(n))
    case Str(s) => Some(Quote(s))
    case Arr(es) => Some("[" + Join(ElemTexts(es)) + "]")
    case Obj(ps) => Some("{" + Join(MemberTexts(ps)) + "}")
  }

  /** An array element's text: elements without JSON text become `null`. */
  function ElemText(v: Json): (r: string)
    ensures |r| > 0
    decreases v, 1
  {
    match Stringify(v)
    case Some(t) => t
    case None => "null"
  }

  function ElemTexts(es: seq<Json>): (r: seq<string>)
    ensures |r| == |es|
    decreases es
  {
    if |es| == 0 then [] else [ElemText(es[0])] + ElemTexts(es[1..])
  }

  /** The `"name":value` members of an object; properties whose value has no
      JSON text are skipped. */
  function MemberTexts(ps: seq<Prop>): (r: seq<string>)
    ensures |r| <= |ps|
    decreases ps
  {
    if |ps| == 0 then []
    else match Stringify(ps[0].value)
      case Some(t) => [Quote(ps[0].name) + ":" + t] + MemberTexts(ps[1..])
      case None => MemberTexts(ps[1..])
  }

  /** `${JSON.stringify(v)}` in a template literal, which is also the property
      key a JavaScript object uses for `JSON.stringify(v)`: the text `undefined`
      when there is no JSON text. */
  function TextOrUndefined(v: Json): (r: string)
    ensures Stringify(v).Some? ==> r == Stringify(v).value
    ensures Stringify(v).None? ==> r == "undefined"
  {
    match Stringify(v)
    case Some(t) => t
    case None => "undefined"
  }

  /** Values that `JSON.stringify` represents without loss: nothing inside is
      `undefined` or without JSON text. */
  predicate Exact(v: Json)
    decreases v
  {
    match v
    case Undefined => false
    case Opaque => false
    case Arr(es) => forall i :: 0 <= i < |es| ==> Exact(es[i])
    case Obj(ps) => forall i :: 0 <= i < |ps| ==> Exact(ps[i].value)
    case _ => true
  }
}

=== FILE: json_parse.dfy ===
/** A reader for the JSON text `Stringify` produces, and the proof that it
    recovers every exact value. The reader is the partner of the serializer:
    it is what makes two different identities provably land on two different
    cache keys. */
module JsonParse {
  import opened Wrappers
  import opened Json

  predicate IsDigit(c: char) {
    '0' <= c <= '9'
  }

  function DigitValue(c: char): int
    requires IsDigit(c)
  {
    c as int - '0' as int
  }

  function HexValue(c: char): Option<int>
  {
    if '0' <= c <= '9' then Some(c as int - '0' as int)
    else if 'a' <= c <= 'f' then Some(c as int - 'a' as int + 10)
    else if 'A' <= c <= 'F' then Some(c as int - 'A' as int + 10)
    else None
  }

  /** The longest all-digit prefix of `s`, and what follows it. */
  function SpanDigits(s: string): (r: (string, string))
    ensures r.0 + r.1 == s
    ensures forall i :: 0 <= i < |r.0| ==> IsDigit(r.0[i])
  {
    if |s| > 0 && IsDigit(s[0]) then
      var (d, rest) := SpanDigits(s[1..]);
      assert [s[0]] + d + rest == [s[0]] + (d + rest);
      ([s[0]] + d, rest)
    else ([], s)
  }

  function DigitsValue(d: string): nat
    requires forall i :: 0 <= i < |d| ==> IsDigit(d[i])
  {
    if |d| == 0 then 0 else DigitsValue(d[..|d| - 1]) * 10 + DigitValue(d[|d| - 1])
  }

  /** The number written by four hexadecimal digits. */
  function HexQuad(s: string): Option<int>
    requires |s| >= 4
  {
    match (HexValue(s[0]), HexValue(s[1]), HexValue(s[2]), HexValue(s[3]))
    case (Some(a), Some(b), Some(c), Some(d)) => Some(((a * 16 + b) * 16 + c) * 16 + d)
    case _ => None
  }

  /** The character with code point `n`, if it is one. */
  function CodeChar(n: int): Option<char>
  {
    if 0 <= n < 0xD800 || 0xE000 <= n < 0x11_0000 then Some(n as char) else None
  }

  /** The character named by a `\` escape (the text after the backslash), and
      how many characters the escape occupies after the backslash. */
  function Unescape(s: string): Option<(char, nat)>
  {
    if |s| == 0 then None
    else if s[0] == '"' then Some(('"', 1))
    else if s[0] == '\\' then Some(('\\', 1))
    else if s[0] == '/' then Some(('/', 1))
    else if s[0] == 'b' then Some((0x08 as char, 1))
    else if s[0] == 'f' then Some((0x0C as char, 1))
    else if s[0] == 'n' then Some(('\n', 1))
    else if s[0] == 'r' then Some(('\r', 1))
    else if s[0] == 't' then Some(('\t', 1))
    else if s[0] == 'u' && |s| >= 5 then
      match HexQuad(s[1..5])
      case None => None
      case Some(n) =>
        match CodeChar(n)
        case None => None
        case Some(c) => Some((c, 5))
    else None
  }

  /** A string literal's contents up to its closing quote (the opening quote
      already consumed), and the text after the closing quote. */
  function ParseChars(s: string): (r: Option<(string, string)>)
    ensures r.Some? ==> |r.value.1| < |s|
  {
    if |s| == 0 then None
    else if s[0] == '"' then Some(([], s[1..]))
    else if s[0] == '\\' then
      match Unescape(s[1..])
      case None => None
      case Some((c, n)) =>
        match ParseChars(s[1 + n..])
        case None => None
        case Some((body, rest)) => Some(([c] + body, rest))
    else
      match ParseChars(s[1..])
      case None => None
      case Some((body, rest)) => Some(([s[0]] + body, rest))
  }

  function ParseLiteral(s: string, word: string, v: Json): (r: Option<(Json, string)>)
    requires |word| > 0
    ensures r.Some? ==> |r.value.1| < |s|
  {
    if |s| >= |word| && s[..|word|] == word then Some((v, s[|word|..])) else None
  }

  function ParseString(s: string): (r: Option<(Json, string)>)
    requires |s| > 0 && s[0] == '"'
    ensures r.Some? ==> |r.value.1| < |s|
  {
    match ParseChars(s[1..])
    case None => None
    case Some((str, rest)) => Some((Str(str), rest))
  }

  function ParseNumber(s: string): (r: Option<(Json, string)>)
    requires |s| > 0 && (s[0] == '-' || IsDigit(s[0]))
    ensures r.Some? ==> |r.value.1| < |s|
  {
    if s[0] == '-' then
      var (d, rest) := SpanDigits(s[1..]);
      var k: int := DigitsValue(d);
      if |d| == 0 then None else Some((Num(-k), rest))
    else
      var (d, rest) := SpanDigits(s);
      Some((Num(DigitsValue(d)), rest))
  }

  /** Reads one JSON value from the front of `s`. */
  function ParseValue(s: string): (r: Option<(Json, string)>)
    ensures r.Some? ==> |r.value.1| < |s|
    decreases |s|, 2
  {
    if |s| == 0 then None
    else if s[0] == 'n' then ParseLiteral(s, "null", Null)
    else if s[0] == 't' then ParseLiteral(s, "true", Bool(true))
    else if s[0] == 'f' then ParseLiteral(s, "false", Bool(false))
    else if s[0] == '"' then ParseString(s)
    else if s[0] == '-' || IsDigit(s[0]) then ParseNumber(s)
    else if s[0] == '[' then ParseArray(s)
    else if s[0] == '{' then ParseObject(s)
    else None
  }

  function ParseArray(s: string): (r: Option<(Json, string)>)
    requires |s| > 0 && s[0] == '['
    ensures r.Some? ==> |r.value.1| < |s|
    decreases |s|, 1
  {
    if |s| >= 2 && s[1] == ']' then Some((Arr([]), s[2..]))
    else
      match ParseElems(s[1..])
      case None => None
      case Some((es, rest)) => Some((Arr(es), rest))
  }

  function ParseObject(s: string): (r: Option<(Json, string)>)
    requires |s| > 0 && s[0] == '{'
    ensures r.Some? ==> |r.value.1| < |s|
    decreases |s|, 1
  {
    if |s| >= 2 && s[1] == '}' then Some((Obj([]), s[2..]))
    else
      match ParseMembers(s[1..])
      case None => None
      case Some((ps, rest)) => Some((Obj(ps), rest))
  }

  /** Reads `v1,v2,...,vn]` (n >= 1) from the front of `s`. */
  function ParseElems(s: string): (r: Option<(seq<Json>, string)>)
    ensures r.Some? ==> |r.value.1| < |s|
    decreases |s|, 3
  {
    match ParseValue(s)
    case None => None
    case Some((v, rest)) =>
      if |rest| == 0 then None
      else if rest[0] == ']' then Some(([v], rest[1..]))
      else if rest[0] == ',' then
        match ParseElems(rest[1..])
        case None => None
        case Some((vs, rest')) => Some(([v] + vs, rest'))
      else None
  }

  /** Reads `"n1":v1,...,"nk":vk}` (k >= 1) from the front of `s`. */
  function ParseMembers(s: string): (r: Option<(seq<Prop>, string)>)
    ensures r.Some? ==> |r.value.1| < |s|
    decreases |s|, 3
  {
    if |s| == 0 || s[0] != '"' then None
    else
      match ParseChars(s[1..])
      case None => None
      case Some((name, afterName)) =>
        if |afterName| == 0 || afterName[0] != ':' then None
        else
          match ParseValue(afterName[1..])
          case None => None
          case Some((v, rest)) =>
            if |rest| == 0 then None
            else if rest[0] == '}' then Some(([Prop(name, v)], rest[1..]))
            else if rest[0] == ',' then
              match ParseMembers(rest[1..])
              case None => None
              case Some((ps, rest')) => Some(([Prop(name, v)] + ps, rest'))
            else None
  }

  /** Reads a whole JSON text. */
  function Parse(s: string): Option<Json>
  {
    match ParseValue(s)
    case Some((v, rest)) => if rest == [] then Some(v) else None
    case None => None
  }

  // ------------------------------------------------------------- round trip

  /** What may follow a value's text inside a larger text. */
  predicate Delimited(rest: string) {
    rest == [] || rest[0] == ',' || rest[0] == ']' || rest[0] == '}'
  }

  lemma {:induction false} SpanDigitsOf(d: string, rest: string)
    requires forall i :: 0 <= i < |d| ==> IsDigit(d[i])
    requires rest == [] || !IsDigit(rest[0])
    ensures SpanDigits(d + rest) == (d, rest)
    decreases |d|
  {
    var s := d + rest;
    if |d| > 0 {
      assert s[0] == d[0];
      assert s[1..] == d[1..] + rest;
      SpanDigitsOf(d[1..], rest);
      assert SpanDigits(s) == ([s[0]] + d[1..], rest);
      assert [d[0]] + d[1..] == d;
    } else {
      assert s == rest;
    }
  }

  lemma {:induction false} NatTextDigits(n: nat)
    ensures forall i :: 0 <= i < |NatText(n)| ==> IsDigit(NatText(n)[i])
    ensures DigitsValue(NatText(n)) == n
    decreases n
  {
    if n >= 10 {
      NatTextDigits(n / 10);
      var t := NatText(n);
      assert t == NatText(n / 10) + [Digit(n % 10)];
      assert t[..|t| - 1] == NatText(n / 10);
    }
  }

  lemma ParseValueMinus(s: string)
    requires |s| > 0 && s[0] == '-'
    ensures ParseValue(s) == ParseNumber(s)
  {
  }

  lemma ParseValueDigit(s: string)
    requires |s| > 0 && IsDigit(s[0])
    ensures ParseValue(s) == ParseNumber(s)
  {
    assert s[0] != 'n' && s[0] != 't' && s[0] != 'f' && s[0] != '"' && s[0] != '-';
  }

  lemma ParseValueString(s: string)
    requires |s| > 0 && s[0] == '"'
    ensures ParseValue(s) == ParseString(s)
  {
  }

  lemma ParseValueArray(s: string)
    requires |s| > 0 && s[0] == '['
    ensures ParseValue(s) == ParseArray(s)
  {
    assert s[0] != 'n' && s[0] != 't' && s[0] != 'f' && s[0] != '"' && s[0] != '-' && !IsDigit(s[0]);
  }

  lemma ParseValueObject(s: string)
    requires |s| > 0 && s[0] == '{'
    ensures ParseValue(s) == ParseObject(s)
  {
    assert s[0] != 'n' && s[0] != 't' && s[0] != 'f' && s[0] != '"' && s[0] != '-' && !IsDigit(s[0]) && s[0] != '[';
  }

  lemma NegativeRoundTrip(n: int, rest: string)
    requires n < 0
    requires Delimited(rest)
    ensures ParseValue(IntText(n) + rest) == Some((Num(n), rest))
  {
    var s := IntText(n) + rest;
    NatTextDigits(-n);
    MinusShape(n, rest);
    SpanDigitsOf(NatText(-n), rest);
    ParseValueMinus(s);
  }

  lemma MinusShape(n: int, rest: string)
    requires n < 0
    ensures (IntText(n) + rest)[0] == '-'
    ensures (IntText(n) + rest)[1..] == NatText(-n) + rest
  {
    assert IntText(n) + rest == "-" + (NatText(-n) + rest);
  }

  lemma NonNegativeRoundTrip(n: int, rest: string)
    requires n >= 0
    requires Delimited(rest)
    ensures ParseValue(IntText(n) + rest) == Some((Num(n), rest))
  {
    var s := IntText(n) + rest;
    NatTextDigits(n);
    assert s == NatText(n) + rest;
    assert IsDigit(s[0]);
    SpanDigitsOf(NatText(n), rest);
    ParseValueDigit(s);
  }

  lemma HexDigitValue(d: int)
    requires 0 <= d < 16
    ensures HexValue(HexDigit(d)) == Some(d)
  {
  }

  /** Reading one character's escape, the `\u00XX` case. */
  lemma ControlEscapeRoundTrip(c: char, t: string)
    requires c as int < 0x20
    ensures Unescape(EscapeControl(c)[1..] + t) == Some((c, 5))
  {
    var hi, lo := c as int / 16, c as int % 16;
    HexDigitValue(hi);
    HexDigitValue(lo);
    var u := EscapeControl(c)[1..] + t;
    assert u[0] == 'u';
    assert u[1..5] == ['0', '0', HexDigit(hi), HexDigit(lo)];
    assert HexQuad(u[1..5]) == Some(c as int);
  }

  function EscapeControl(c: char): string
    requires c as int < 0x20
  {
    "\\u00" + [HexDigit(c as int / 16), HexDigit(c as int % 16)]
  }

  lemma EscapeCharRoundTrip(c: char, t: string)
    ensures ParseChars(EscapeChar(c) + t) ==
      match ParseChars(t)
      case None => None
      case Some((body, rest)) => Some(([c] + body, rest))
  {
    var s := EscapeChar(c) + t;
    if c == '"' || c == '\\' || c as int == 0x08 || c as int == 0x0C || c == '\n' || c == '\r' || c == '\t' {
      assert s[0] == '\\';
      assert s[1..][1..] == t;
      assert s[1 + 1..] == t;
    } else if (c as int) < 0x20 {
      assert EscapeChar(c) == EscapeControl(c);
      assert s[0] == '\\';
      assert s[1..] == EscapeControl(c)[1..] + t;
      ControlEscapeRoundTrip(c, t);
      assert s[1 + 5..] == t;
    } else {
      assert s[0] == c;
      assert s[1..] == t;
    }
  }

  lemma {:induction false} QuoteBodyRoundTrip(str: string, rest: string)
    ensures ParseChars(QuoteBody(str) + "\"" + rest) == Some((str, rest))
    decreases |str|
  {
    if |str| == 0 {
      assert QuoteBody(str) + "\"" + rest == "\"" + rest;
    } else {
      var t := QuoteBody(str[1..]) + "\"" + rest;
      assert QuoteBody(str) + "\"" + rest == EscapeChar(str[0]) + t;
      EscapeCharRoundTrip(str[0], t);
      QuoteBodyRoundTrip(str[1..], rest);
      assert [str[0]] + str[1..] == str;
    }
  }

  lemma QuoteRoundTrip(str: string, rest: string)
    ensures ParseValue(Quote(str) + rest) == Some((Str(str), rest))
  {
    var s := Quote(str) + rest;
    assert s[0] == '"';
    assert s[1..] == QuoteBody(str) + "\"" + rest;
    QuoteBodyRoundTrip(str, rest);
    ParseValueString(s);
  }

  lemma LiteralRoundTrip(word: string, v: Json, rest: string)
    requires |word| > 0
    ensures ParseLiteral(word + rest, word, v) == Some((v, rest))
  {
    assert (word + rest)[..|word|] == word;
    assert (word + rest)[|word|..] == rest;
  }

  /** The text of an exact value. */
  function Text(v: Json): (r: string)
    requires Exact(v)
    ensures Stringify(v) == Some(r)
  {
    Stringify(v).value
  }

  lemma JoinTailNonEmpty(parts: seq<string>)
    requires |parts| > 0
    ensures JoinTail(parts) == "," + Join(parts)
  {
  }

  /** The text of an exact value never starts with a closing bracket. */
  lemma TextStart(v: Json)
    requires Exact(v)
    ensures Text(v)[0] != ']' && Text(v)[0] != '}'
  {
    match v
    case Num(n) => {
      if n >= 0 {
        NatTextDigits(n);
        assert IsDigit(NatText(n)[0]);
      }
    }
    case _ =>
  }

  /** Reading the text of an exact value gives the value back, and leaves
      whatever delimited text follows it. */
  lemma {:induction false} ValueRoundTrip(v: Json, rest: string)
    requires Exact(v)
    requires Delimited(rest)
    ensures ParseValue(Text(v) + rest) == Some((v, rest))
    decreases v, 2
  {
    match v
    case Null => LiteralRoundTrip("null", Null, rest);
    case Bool(b) =>
      if b { LiteralRoundTrip("true", v, rest); } else { LiteralRoundTrip("false", v, rest); }
    case Num(n) =>
      if n < 0 { NegativeRoundTrip(n, rest); } else { NonNegativeRoundTrip(n, rest); }
    case Str(str) => QuoteRoundTrip(str, rest);
    case Arr(es) => ArrayRoundTrip(v, rest);
    case Obj(ps) => ObjectRoundTrip(v, rest);
  }

  lemma {:induction false} ArrayRoundTrip(v: Json, rest: string)
    requires v.Arr? && Exact(v)
    requires Delimited(rest)
    ensures ParseValue(Text(v) + rest) == Some((v, rest))
    decreases v, 1
  {
    var es := v.elems;
    var s := Text(v) + rest;
    if |es| == 0 {
      EmptyRoundTrip(v, rest);
    } else {
      var body := Join(ElemTexts(es)) + "]" + rest;
      ContainerText(v, rest);
      ElemsRoundTrip(v, es, rest);
      ElemsBodyStart(es, rest);
      ArrayFromBody(s, body, es, rest);
    }
  }

  lemma ContainerText(v: Json, rest: string)
    requires v.Arr? || v.Obj?
    requires Exact(v)
    ensures v.Arr? ==> Text(v) + rest == "[" + (Join(ElemTexts(v.elems)) + "]" + rest)
    ensures v.Obj? ==> Text(v) + rest == "{" + (Join(MemberTexts(v.props)) + "}" + rest)
  {
  }

  lemma EmptyRoundTrip(v: Json, rest: string)
    requires v == Arr([]) || v == Obj([])
    ensures ParseValue(Text(v) + rest) == Some((v, rest))
  {
    var s := Text(v) + rest;
    assert s[2..] == rest;
    if v.Arr? {
      assert s == "[]" + rest;
      ParseValueArray(s);
    } else {
      assert s == "{}" + rest;
      ParseValueObject(s);
    }
  }

  lemma ElemsBodyStart(es: seq<Json>, rest: string)
    requires |es| > 0 && Exact(es[0])
    ensures (Join(ElemTexts(es)) + "]" + rest)[0] != ']'
  {
    var j := Join(ElemTexts(es));
    ElemTextsHead(es);
    TextStart(es[0]);
    assert j[0] == Text(es[0])[0];
    assert (j + "]" + rest)[0] == j[0];
  }

  lemma ArrayFromBody(s: string, body: string, es: seq<Json>, rest: string)
    requires s == "[" + body
    requires |body| > 0 && body[0] != ']'
    requires ParseElems(body) == Some((es, rest))
    ensures ParseValue(s) == Some((Arr(es), rest))
  {
    assert s[0] == '[';
    ParseValueArray(s);
    assert s[1..] == body;
  }

  lemma ElemTextsHead(es: seq<Json>)
    requires |es| > 0 && Exact(es[0])
    ensures Join(ElemTexts(es)) == Text(es[0]) + JoinTail(ElemTexts(es[1..]))
  {
    assert ElemTexts(es) == [Text(es[0])] + ElemTexts(es[1..]);
    assert ElemTexts(es)[1..] == ElemTexts(es[1..]);
  }

  lemma ElemsLast(s: string, v: Json, rest: string)
    requires ParseValue(s) == Some((v, "]" + rest))
    ensures ParseElems(s) == Some(([v], rest))
  {
    assert ("]" + rest)[1..] == rest;
  }

  lemma ElemsNext(s: string, v: Json, more: string, vs: seq<Json>, rest: string)
    requires ParseValue(s) == Some((v, "," + more))
    requires ParseElems(more) == Some((vs, rest))
    ensures ParseElems(s) == Some(([v] + vs, rest))
  {
    assert ("," + more)[1..] == more;
  }

  lemma ElemsShapeLast(es: seq<Json>, rest: string)
    requires |es| == 1 && Exact(es[0])
    ensures Join(ElemTexts(es)) + "]" + rest == Text(es[0]) + ("]" + rest)
  {
    ElemTextsHead(es);
    assert ElemTexts(es[1..]) == [];
  }

  lemma ElemsShapeNext(es: seq<Json>, rest: string)
    requires |es| > 1 && Exact(es[0])
    ensures Join(ElemTexts(es)) + "]" + rest == Text(es[0]) + ("," + (Join(ElemTexts(es[1..])) + "]" + rest))
  {
    ElemTextsHead(es);
    JoinTailNonEmpty(ElemTexts(es[1..]));
  }

  lemma {:induction false} ElemsRoundTrip(parent: Json, es: seq<Json>, rest: string)
    requires |es| > 0
    requires forall i :: 0 <= i < |es| ==> es[i] < parent
    requires forall i :: 0 <= i < |es| ==> Exact(es[i])
    requires Delimited(rest)
    ensures ParseElems(Join(ElemTexts(es)) + "]" + rest) == Some((es, rest))
    decreases parent, 0, |es|
  {
    var head := Text(es[0]);
    if |es| == 1 {
      ElemsShapeLast(es, rest);
      ValueRoundTrip(es[0], "]" + rest);
      ElemsLast(head + ("]" + rest), es[0], rest);
      assert [es[0]] == es;
    } else {
      var more := Join(ElemTexts(es[1..])) + "]" + rest;
      ElemsShapeNext(es, rest);
      ValueRoundTrip(es[0], "," + more);
      ElemsRoundTrip(parent, es[1..], rest);
      ElemsNext(head + ("," + more), es[0], more, es[1..], rest);
      assert [es[0]] + es[1..] == es;
    }
  }

  lemma {:induction false} ObjectRoundTrip(v: Json, rest: string)
    requires v.Obj? && Exact(v)
    requires Delimited(rest)
    ensures ParseValue(Text(v) + rest) == Some((v, rest))
    decreases v, 1
  {
    var ps := v.props;
    var s := Text(v) + rest;
    if |ps| == 0 {
      EmptyRoundTrip(v, rest);
    } else {
      var body := Join(MemberTexts(ps)) + "}" + rest;
      ContainerText(v, rest);
      MembersRoundTrip(v, ps, rest);
      MembersBodyStart(ps, rest);
      ObjectFromBody(s, body, ps, rest);
    }
  }

  lemma MembersBodyStart(ps: seq<Prop>, rest: string)
    requires |ps| > 0 && Exact(ps[0].value)
    ensures (Join(MemberTexts(ps)) + "}" + rest)[0] == '"'
  {
    var j := Join(MemberTexts(ps));
    MemberTextsHead(ps);
    MemberTextShape(ps[0], JoinTail(MemberTexts(ps[1..])));
    assert |j| > 0 && j[0] == '"';
    assert (j + "}" + rest)[0] == j[0];
  }

  lemma ObjectFromBody(s: string, body: string, ps: seq<Prop>, rest: string)
    requires s == "{" + body
    requires |body| > 0 && body[0] == '"'
    requires ParseMembers(body) == Some((ps, rest))
    ensures ParseValue(s) == Some((Obj(ps), rest))
  {
    assert s[0] == '{';
    ParseValueObject(s);
    assert s[1..] == body;
  }

  function MemberText(p: Prop): string
    requires Exact(p.value)
  {
    Quote(p.name) + ":" + Text(p.value)
  }

  lemma MemberTextsHead(ps: seq<Prop>)
    requires |ps| > 0 && Exact(ps[0].value)
    ensures Join(MemberTexts(ps)) == MemberText(ps[0]) + JoinTail(MemberTexts(ps[1..]))
  {
    assert MemberTexts(ps) == [MemberText(ps[0])] + MemberTexts(ps[1..]);
    assert MemberTexts(ps)[1..] == MemberTexts(ps[1..]);
  }

  lemma MemberTextsNonEmpty(ps: seq<Prop>)
    requires |ps| > 0 && Exact(ps[0].value)
    ensures |MemberTexts(ps)| > 0
  {
    assert MemberTexts(ps) == [MemberText(ps[0])] + MemberTexts(ps[1..]);
  }

  /** Reading `"name":` in front of a value. */
  lemma MemberName(name: string, after: string)
    ensures ParseChars((Quote(name) + ":" + after)[1..]) == Some((name, ":" + after))
  {
    assert (Quote(name) + ":" + after)[1..] == QuoteBody(name) + "\"" + (":" + after);
    QuoteBodyRoundTrip(name, ":" + after);
  }

  lemma MemberTextShape(p: Prop, after: string)
    requires Exact(p.value)
    ensures MemberText(p) + after == Quote(p.name) + ":" + (Text(p.value) + after)
    ensures (MemberText(p) + after)[0] == '"'
  {
  }

  lemma MembersLast(p: Prop, rest: string)
    requires Exact(p.value)
    requires ParseValue(Text(p.value) + ("}" + rest)) == Some((p.value, "}" + rest))
    ensures ParseMembers(MemberText(p) + ("}" + rest)) == Some(([p], rest))
  {
    var after := Text(p.value) + ("}" + rest);
    MemberTextShape(p, "}" + rest);
    MemberName(p.name, after);
    assert (":" + after)[1..] == after;
    assert ("}" + rest)[1..] == rest;
  }

  lemma MembersNext(p: Prop, more: string, ps: seq<Prop>, rest: string)
    requires Exact(p.value)
    requires ParseValue(Text(p.value) + ("," + more)) == Some((p.value, "," + more))
    requires ParseMembers(more) == Some((ps, rest))
    ensures ParseMembers(MemberText(p) + ("," + more)) == Some(([p] + ps, rest))
  {
    var after := Text(p.value) + ("," + more);
    MemberTextShape(p, "," + more);
    MemberName(p.name, after);
    assert (":" + after)[1..] == after;
    assert ("," + more)[1..] == more;
  }

  lemma MembersShapeLast(ps: seq<Prop>, rest: string)
    requires |ps| == 1 && Exact(ps[0].value)
    ensures Join(MemberTexts(ps)) + "}" + rest == MemberText(ps[0]) + ("}" + rest)
  {
    var m := MemberText(ps[0]);
    MemberTextsHead(ps);
    assert ps[1..] == [];
    assert MemberTexts(ps[1..]) == [];
    assert JoinTail(MemberTexts(ps[1..])) == "";
    assert Join(MemberTexts(ps)) == m;
    assert m + "}" + rest == m + ("}" + rest);
  }

  lemma MembersShapeNext(ps: seq<Prop>, rest: string)
    requires |ps| > 1 && Exact(ps[0].value) && Exact(ps[1].value)
    ensures Join(MemberTexts(ps)) + "}" + rest
         == MemberText(ps[0]) + ("," + (Join(MemberTexts(ps[1..])) + "}" + rest))
  {
    MemberTextsHead(ps);
    MemberTextsNonEmpty(ps[1..]);
    JoinTailNonEmpty(MemberTexts(ps[1..]));
  }

  lemma {:induction false} MembersRoundTrip(parent: Json, ps: seq<Prop>, rest: string)
    requires |ps| > 0
    requires forall i :: 0 <= i < |ps| ==> ps[i].value < parent
    requires forall i :: 0 <= i < |ps| ==> Exact(ps[i].value)
    requires Delimited(rest)
    ensures ParseMembers(Join(MemberTexts(ps)) + "}" + rest) == Some((ps, rest))
    decreases parent, 0, |ps|
  {
    var p := ps[0];
    if |ps| == 1 {
      MembersShapeLast(ps, rest);
      ValueRoundTrip(p.value, "}" + rest);
      MembersLast(p, rest);
      assert [p] == ps;
    } else {
      var more := Join(MemberTexts(ps[1..])) + "}" + rest;
      MembersShapeNext(ps, rest);
      ValueRoundTrip(p.value, "," + more);
      MembersRoundTrip(parent, ps[1..], rest);
      MembersNext(p, more, ps[1..], rest);
      assert [p] + ps[1..] == ps;
    }
  }

  /** `JSON.parse(JSON.stringify(v))` gives `v` back for every exact value. */
  lemma ParseStringify(v: Json)
    requires Exact(v)
    ensures Parse(Text(v)) == Some(v)
  {
    ValueRoundTrip(v, []);
    assert Text(v) + [] == Text(v);
  }

  /** Different exact values have different JSON texts. */
  lemma StringifyInjective(a: Json, b: Json)
    requires Exact(a) && Exact(b)
    ensures Stringify(a) == Stringify(b) <==> a == b
  {
    if Stringify(a) == Stringify(b) {
      ParseStringify(a);
      ParseStringify(b);
    }
  }

  /** Without exactness the text loses information: an `undefined` array
      element prints as `null`, and an `undefined` property is dropped. */
  lemma StringifyCollisions()
    ensures Stringify(Arr([Undefined])) == Stringify(Arr([Null])) == Some("[null]")
    ensures Stringify(Obj([Prop("a", Undefined)])) == Stringify(Obj([])) == Some("{}")
  {
    assert ElemTexts([Undefined]) == ["null"];
    assert ElemTexts([Null]) == ["null"];
    assert Join(["null"]) == "null";
    assert "[" + "null" + "]" == "[null]";
    assert MemberTexts([Prop("a", Undefined)]) == [];
    assert Join([]) == "";
    assert "{" + "" + "}" == "{}";
  }
}

=== FILE: rx_cache.dfy ===
/** The entry tables of the rxjs engine (`src/state.ts`) and every operation
    on them, as pure state transitions.

    The class keeps two tables keyed alike: `subjects`, one `ReplaySubject(1)`
    per key, and `observables`, a record per key holding the subject's
    read-only view and an optional `lastUpdated`. A `ReplaySubject(1)` is
    modelled by the one snapshot it replays, and each value a source emits is
    one transition. The clock is the `now` argument. */
module RxCache {
  import opened Wrappers
  import opened Json
  import opened RxKeys

  /** What `addToState` pushes: the data and the time it was written. */
  datatype Snapshot = Snapshot(data: Json, lastUpdated: int)

  /** A `ReplaySubject(1)`: the latest snapshot, once one was pushed. */
  datatype Replay = Replay(latest: Option<Snapshot>)

  /** An `observables` record. Its `observable` is the paired subject's view,
      so only the optional `lastUpdated` is state of its own. */
  datatype Record = Record(lastUpdated: Option<int>)

  datatype Tables = Tables(subjects: map<string, Replay>, observables: map<string, Record>)

  const Empty: Tables := Tables(map[], map[])

  /** Both tables hold the same keys: one subject and one record per entry. */
  predicate Paired(t: Tables) {
    t.subjects.Keys == t.observables.Keys
  }

  /** No record carries a `lastUpdated`. */
  predicate Unstamped(t: Tables) {
    forall k :: k in t.observables ==> t.observables[k].lastUpdated.None?
  }

  /** Every subject has replayed value. */
  predicate Published(t: Tables) {
    forall k :: k in t.subjects ==> t.subjects[k].latest.Some?
  }

  /** A single-entity store only ever uses its one key. */
  predicate OneKey(c: Config, t: Tables) {
    c.singleEntityMode ==> t.observables.Keys <= {SingleKey(c)}
  }

  /** What holds of the tables from construction on. */
  predicate Valid(c: Config, t: Tables) {
    Paired(t) && Unstamped(t) && Published(t) && OneKey(c, t)
  }

  /** The data an entry's stream replays, if it has one. */
  function Latest(t: Tables, k: string): Option<Json>
  {
    if k in t.subjects && t.subjects[k].latest.Some? then Some(t.subjects[k].latest.value.data) else None
  }

  /** The identity stored under the configured id property. */
  function IdOf(c: Config, data: Json): Json
  {
    Get(data, c.idProperty)
  }

  // ------------------------------------------------------------------ TTL

  /** The `lastUpdated` of the record an identity addresses. */
  function RecordStamp(c: Config, t: Tables, id: Json): (r: Result<Option<int>, Error>)
    ensures r.Failure? <==> KeyOf(c, id).Failure?
    ensures Unstamped(t) && r.Success? ==> r.value.None?
  {
    var k :- KeyOf(c, id);
    Success(if k in t.observables then t.observables[k].lastUpdated else None)
  }

  /** `isExpired(id, lastUpdated)`: without a timestamp argument the one in
      the identity's record is used (deriving its key may throw); without any
      timestamp nothing is expired; otherwise the entry is expired once `ttl`
      milliseconds have passed. */
  function IsExpired(c: Config, t: Tables, now: int, id: Json, lastUpdated: Option<int>): (r: Result<bool, Error>)
    ensures lastUpdated.Some? ==> r == Success(now - lastUpdated.value >= c.ttl)
    ensures r.Failure? <==> lastUpdated.None? && KeyOf(c, id).Failure?
    ensures lastUpdated.None? && Unstamped(t) && r.Success? ==> !r.value
    ensures lastUpdated.None? && RecordStamp(c, t, id).Success? ==>
              var stamp := RecordStamp(c, t, id).value;
              r == Success(stamp.Some? && now - stamp.value >= c.ttl)
  {
    var prev :- if lastUpdated.Some? then Success(lastUpdated) else RecordStamp(c, t, id);
    Success(prev.Some? && now - prev.value >= c.ttl)
  }

  /** `generateStateId`: the key of an identity, after the expiry test on an
      entry already present. Only that test can make it fail where key
      derivation succeeds: the test passes `undefined` as the identity, and
      an entry found expired would make `remove` call this function again on
      unchanged tables, without end. */
  function StateId(c: Config, t: Tables, now: int, id: Json): (r: Result<string, Error>)
    ensures r.Success? ==> r == KeyOf(c, id)
    ensures KeyOf(c, id).Failure? ==> r == KeyOf(c, id)
    ensures r.Failure? && KeyOf(c, id).Success? ==> KeyOf(c, id).value in t.observables
    ensures r.Failure? ==> r.error == UndefinedId || r.error == UnknownError || r.error == CallStackExceeded
  {
    var k :- KeyOf(c, id);
    if k in t.observables then
      var expired :- IsExpired(c, t, now, Undefined, t.observables[k].lastUpdated);
      if expired then Failure(CallStackExceeded) else Success(k)
    else Success(k)
  }

  // --------------------------------------------------------------- writes

  /** `initializeState`: a fresh subject and record for a key that lacks
      either; a complete pair is left as it is. */
  function InitializeState(t: Tables, k: string): (r: Tables)
    ensures k in r.subjects && k in r.observables
    ensures k in t.subjects && k in t.observables ==> r == t
    ensures !(k in t.subjects && k in t.observables) ==>
              r.subjects[k] == Replay(None) && r.observables[k] == Record(None)
    ensures r.subjects.Keys == t.subjects.Keys + {k} && r.observables.Keys == t.observables.Keys + {k}
    ensures forall j :: j != k && j in t.subjects ==> r.subjects[j] == t.subjects[j]
    ensures forall j :: j != k && j in t.observables ==> r.observables[j] == t.observables[j]
  {
    if k in t.subjects && k in t.observables then t
    else Tables(t.subjects[k := Replay(None)], t.observables[k := Record(None)])
  }

  /** The table effect of `addToState` once the key is known: the entry is
      initialized if needed and its subject replays `snap`; a record already
      paired with a subject is kept, and no other entry changes. */
  function Put(t: Tables, k: string, snap: Snapshot): (r: Tables)
    ensures r.subjects.Keys == t.subjects.Keys + {k} && r.observables.Keys == t.observables.Keys + {k}
    ensures r.subjects[k] == Replay(Some(snap))
    ensures r.observables[k] == if k in t.subjects && k in t.observables then t.observables[k] else Record(None)
    ensures forall j :: j != k && j in t.subjects ==> r.subjects[j] == t.subjects[j]
    ensures forall j :: j != k && j in t.observables ==> r.observables[j] == t.observables[j]
  {
    var t1 := InitializeState(t, k);
    t1.(subjects := t1.subjects[k := Replay(Some(snap))])
  }

  /** `addToState({data})`: falsy data is refused with `undefined_object`;
      otherwise the entry of `data[idProperty]` is created if needed and
      replays `{data, lastUpdated: now}`. */
  function AddToState(c: Config, t: Tables, now: int, data: Json): (r: Result<(Tables, Snapshot), Error>)
    ensures !Truthy(data) ==> r == Failure(UndefinedObject)
    ensures r.Failure? <==> !Truthy(data) || StateId(c, t, now, IdOf(c, data)).Failure?
    ensures r.Success? ==>
              KeyOf(c, IdOf(c, data)).Success? && r.value == (Put(t, KeyOf(c, IdOf(c, data)).value, Snapshot(data, now)), Snapshot(data, now))
  {
    if !Truthy(data) then Failure(UndefinedObject)
    else
      var k :- StateId(c, t, now, IdOf(c, data));
      var snap := Snapshot(data, now);
      Success((Put(t, k, snap), snap))
  }

  // ---------------------------------------------------------------- queries

  /** `countStateItems`/`count`: the number of records. */
  function Count(t: Tables): (n: nat)
    ensures Paired(t) ==> n == |t.subjects|
  {
    |t.observables|
  }

  /** `exisitsInState`/`exists`: whether the identity's key has both a record
      and a subject, after the expiry test of `generateStateId`. */
  function Exists(c: Config, t: Tables, now: int, id: Json): (r: Result<bool, Error>)
    ensures KeyOf(c, id).Failure? ==> r == KeyOf(c, id).PropagateFailure()
    ensures r == Success(true) ==> KeyOf(c, id).Success? && KeyOf(c, id).value in t.observables && KeyOf(c, id).value in t.subjects
    ensures KeyOf(c, id).Success? && KeyOf(c, id).value !in t.observables ==> r == Success(false)
  {
    var k :- StateId(c, t, now, id);
    Success(k in t.observables && k in t.subjects)
  }

  /** `remove`: deletes the identity's subject and record. */
  function Remove(c: Config, t: Tables, now: int, id: Json): (r: Result<Tables, Error>)
    ensures KeyOf(c, id).Failure? ==> r == KeyOf(c, id).PropagateFailure()
    ensures r.Success? ==>
              KeyOf(c, id).Success? && r.value == Tables(t.subjects - {KeyOf(c, id).value}, t.observables - {KeyOf(c, id).value})
  {
    var k :- StateId(c, t, now, id);
    Success(Tables(t.subjects - {k}, t.observables - {k}))
  }

  /** `clear`: deletes every subject and record. */
  function Clear(t: Tables): (r: Tables)
    ensures Count(r) == 0 && r.subjects == map[]
  {
    Empty
  }

  // ----------------------------------------------------------------- sources

  /** An `ObservableStateDataSource` once its kind is known: a plain value (an
      omitted source is the value `undefined`), a promise with the value it
      resolves to, or a stream with the values it emits. */
  datatype Source = Value(v: Json) | Promise(resolved: Json) | Stream(values: seq<Json>)

  /** `getObservableFrom`: every source becomes a stream; a value or a
      promise emits exactly once. */
  function Emissions(src: Source): (r: seq<Json>)
    ensures src.Value? ==> r == [src.v]
    ensures src.Promise? ==> r == [src.resolved]
    ensures src.Stream? ==> r == src.values
  {
    match src
    case Value(v) => [v]
    case Promise(v) => [v]
    case Stream(vs) => vs
  }

  /** One emission of a source, and the time it arrives. */
  datatype Emission = Emission(value: Json, at: int)

  /** The effect of a subscription: the tables afterwards, the snapshots
      written in order, and the error that ended it early, if any. */
  datatype Run = Run(tables: Tables, written: seq<Snapshot>, failure: Option<Error>)

  /** `set(source)`, subscribed once: every emission goes through
      `addToState`; the first one that throws ends the stream, and the writes
      before it stay. */
  function SetStream(c: Config, t: Tables, ems: seq<Emission>): (r: Run)
    ensures |r.written| <= |ems|
    ensures r.failure.None? ==> |r.written| == |ems|
    ensures r.failure.Some? ==> |r.written| < |ems|
    ensures forall i :: 0 <= i < |r.written| ==> r.written[i] == Snapshot(ems[i].value, ems[i].at)
    ensures r.failure.Some? ==> r.failure.value != InvalidObservable
    decreases |ems|
  {
    if |ems| == 0 then Run(t, [], None)
    else
      var step := AddToState(c, t, ems[0].at, ems[0].value);
      if step.Failure? then Run(t, [], Some(step.error))
      else
        var rest := SetStream(c, step.value.0, ems[1..]);
        Run(rest.tables, [step.value.1] + rest.written, rest.failure)
  }

  /** What `get` returns: the entry's own stream, replaying its latest data,
      or the stream of `set(source)`, which writes each value it emits. */
  datatype Reply = Cached(latest: Option<Json>) | Loading(values: seq<Json>)

  /** `get(id, source)`: the key is derived first (and may throw); a present
      entry answers from its stream, a missing one loads the source. Since
      every source becomes a stream, `item_not_found` and
      `invalid_id_and_observable` are never returned. */
  function GetItem(c: Config, t: Tables, now: int, id: Json, src: Source): (r: Result<Reply, Error>)
    ensures r.Failure? ==> r.error != NotFound && r.error != InvalidIdAndObservable
    ensures r.Success? && r.value.Cached? ==>
              KeyOf(c, id).Success? && KeyOf(c, id).value in t.observables && r.value.latest == Latest(t, KeyOf(c, id).value)
    ensures r.Success? && r.value.Loading? ==>
              KeyOf(c, id).Success? && KeyOf(c, id).value !in t.observables && r.value.values == Emissions(src)
  {
    var k :- StateId(c, t, now, id);
    if k in t.observables then Success(Cached(Latest(t, k)))
    else Success(Loading(Emissions(src)))
  }

  /** One emission of `create(object, source)`: the emitted id is assigned to
      `object[idProperty]` (a TypeError unless it is an object) and the
      object is written. The updated object is kept for the next emission. */
  function CreateEmission(c: Config, t: Tables, now: int, obj: Json, id: Json): (r: Result<(Tables, Json), Error>)
    ensures !obj.Obj? ==> r == Failure(TypeError)
    ensures r.Success? ==> r.value.1.Obj? && IdOf(c, r.value.1) == id
    ensures r.Success? ==> forall p :: p != c.idProperty ==> Get(r.value.1, p) == Get(obj, p)
    ensures r.Success? ==> KeyOf(c, id).Success? && r.value.0 == Put(t, KeyOf(c, id).value, Snapshot(r.value.1, now))
  {
    match WithField(obj, c.idProperty, id)
    case None => Failure(TypeError)
    case Some(o) =>
      var (t1, _) :- AddToState(c, t, now, o);
      Success((t1, o))
  }

  // ------------------------------------------------------------ setMultiple

  /** `setMultiple` at call time: `clearAll` empties the tables before any
      value arrives. */
  function BeginSetMultiple(t: Tables, clearAll: bool): (r: Tables)
    ensures clearAll ==> r == Empty
    ensures !clearAll ==> r == t
  {
    if clearAll then Empty else t
  }

  /** The `replaceExisting || !exisitsInState(stateId)` guard. It passes the
      already derived key `k` to `exisitsInState`, which derives a key from
      it again. */
  function WriteGuard(c: Config, t: Tables, now: int, k: string, replaceExisting: bool): (r: Result<bool, Error>)
    ensures replaceExisting ==> r == Success(true)
    ensures !replaceExisting ==> r == (match Exists(c, t, now, Str(k)) { case Success(b) => Success(!b) case Failure(e) => Failure(e) })
  {
    if replaceExisting then Success(true)
    else
      var present :- Exists(c, t, now, Str(k));
      Success(!present)
  }

  /** The `forEach` of one `setMultiple` emission over its items; the first
      item that throws ends it, and the writes before it stay. Each item
      reads the clock itself: `ats[i]` is the time item `i` is handled. */
  function WriteEach(c: Config, t: Tables, items: seq<Json>, ats: seq<int>, replaceExisting: bool): (r: Run)
    requires |ats| == |items|
    ensures |r.written| <= |items|
    ensures replaceExisting && r.failure.None? ==> |r.written| == |items|
    decreases |items|
  {
    if |items| == 0 then Run(t, [], None)
    else
      var step := WriteItem(c, t, ats[0], items[0], replaceExisting);
      if step.Failure? then Run(t, [], Some(step.error))
      else
        var rest := WriteEach(c, step.value.0, items[1..], ats[1..], replaceExisting);
        var here := if step.value.1.Some? then [step.value.1.value] else [];
        Run(rest.tables, here + rest.written, rest.failure)
  }

  /** One item of a `setMultiple` emission: its key, the guard, and the write
      the guard lets through, if any. */
  function WriteItem(c: Config, t: Tables, now: int, obj: Json, replaceExisting: bool): (r: Result<(Tables, Option<Snapshot>), Error>)
    ensures obj == Undefined || obj == Null ==> r == Failure(TypeError)
    ensures r.Success? && r.value.1.Some? ==>
              r.value.1.value == Snapshot(obj, now) && KeyOf(c, IdOf(c, obj)).Success? &&
              r.value.0 == Put(t, KeyOf(c, IdOf(c, obj)).value, Snapshot(obj, now))
    ensures r.Success? && r.value.1.None? ==> r.value.0 == t && !replaceExisting
  {
    var id :- match Field(obj, c.idProperty) { case Some(v) => Success(v) case None => Failure(TypeError) };
    var k :- StateId(c, t, now, id);
    var write :- WriteGuard(c, t, now, k, replaceExisting);
    if write then
      var (t1, snap) :- AddToState(c, t, now, obj);
      Success((t1, Some(snap)))
    else Success((t, None))
  }

  /** One emission of `setMultiple`: `null`/`undefined` is skipped by the
      optional chaining, an array is written item by item (item `i` at time
      `ats[i]`), and anything else has no `forEach`. */
  function SetMultipleEmission(c: Config, t: Tables, objects: Json, ats: seq<int>, replaceExisting: bool): (r: Run)
    requires objects.Arr? ==> |ats| == |objects.elems|
    ensures objects == Undefined || objects == Null ==> r == Run(t, [], None)
    ensures !objects.Arr? && objects != Undefined && objects != Null ==> r == Run(t, [], Some(TypeError))
  {
    match objects
    case Undefined => Run(t, [], None)
    case Null => Run(t, [], None)
    case Arr(items) => WriteEach(c, t, items, ats, replaceExisting)
    case _ => Run(t, [], Some(TypeError))
  }

  // ------------------------------------------------------------ getMultiple

  /** The keys of `ids`, derived in order; the first throw ends the `map`. */
  function StateIds(c: Config, t: Tables, now: int, ids: seq<Json>): (r: Result<seq<string>, Error>)
    ensures r.Success? ==> |r.value| == |ids|
    ensures r.Success? ==> forall i :: 0 <= i < |ids| ==> StateId(c, t, now, ids[i]) == Success(r.value[i])
  {
    if |ids| == 0 then Success([])
    else
      var k :- StateId(c, t, now, ids[0]);
      var ks :- StateIds(c, t, now, ids[1..]);
      Success([k] + ks)
  }

  /** The inner streams `forkJoin` combines: the entry stream of each present
      key in order; a missing key is dropped, or fails the whole call with
      `item_not_found: <json id>` when `breakOnNotFound` is set. */
  function Select(t: Tables, ids: seq<Json>, keys: seq<string>, breakOnNotFound: bool): (r: Result<seq<Option<Json>>, Error>)
    requires |keys| == |ids|
    ensures r.Success? ==> |r.value| <= |keys|
    ensures r.Success? && breakOnNotFound ==>
              |r.value| == |keys| && forall i :: 0 <= i < |keys| ==> keys[i] in t.observables && r.value[i] == Latest(t, keys[i])
    ensures (forall i :: 0 <= i < |keys| ==> keys[i] in t.observables) ==>
              r.Success? && |r.value| == |keys| && forall i :: 0 <= i < |keys| ==> r.value[i] == Latest(t, keys[i])
    ensures r.Failure? ==>
              breakOnNotFound &&
              exists i :: 0 <= i < |keys| && keys[i] !in t.observables && r.error == ItemNotFound(TextOrUndefined(ids[i])) &&
                          (forall j :: 0 <= j < i ==> keys[j] in t.observables)
    ensures (forall i :: 0 <= i < |keys| ==> keys[i] !in t.observables) && !breakOnNotFound ==> r == Success([])
  {
    if |keys| == 0 then Success([])
    else if keys[0] in t.observables then
      var rest :- Select(t, ids[1..], keys[1..], breakOnNotFound);
      Success([Latest(t, keys[0])] + rest)
    else if breakOnNotFound then Failure(ItemNotFound(TextOrUndefined(ids[0])))
    else Select(t, ids[1..], keys[1..], breakOnNotFound)
  }

  /** `getMultiple(ids, breakOnNotFound)`. */
  function GetMultiple(c: Config, t: Tables, now: int, ids: Json, breakOnNotFound: bool): (r: Result<seq<Option<Json>>, Error>)
    ensures !ids.Arr? ==> r == Failure(InvalidArray)
    ensures r.Success? ==> ids.Arr? && |r.value| <= |ids.elems|
    ensures r.Success? && breakOnNotFound ==>
              |r.value| == |ids.elems| &&
              forall i :: 0 <= i < |ids.elems| ==>
                (StateId(c, t, now, ids.elems[i]).Success? &&
                 var k := StateId(c, t, now, ids.elems[i]).value; k in t.observables && r.value[i] == Latest(t, k))
  {
    if !ids.Arr? then Failure(InvalidArray)
    else
      var keys :- StateIds(c, t, now, ids.elems);
      Select(t, ids.elems, keys, breakOnNotFound)
  }
}

=== FILE: rx_keys.dfy ===
/** Configuration and key derivation of the rxjs engine (`src/state.ts`).

    An identity becomes a key by taking its JSON text (or the text of the
    fixed sentinel `'single-entity'` in single-entity mode) and applying the
    configured encoding. The encoders other than `plain` (`btoa`, MD5 and
    SHA-1 of `object-hash`) are foreign code and enter as parameters. */
module RxKeys {
  import opened Wrappers
  import opened Json
  import JsonParse

  /** Every failure the engine can throw or deliver through a stream, by the
      message it carries. `NotFound`, `InvalidIdAndObservable` and
      `InvalidObservable` are written in the source but can never occur. */
  datatype Error =
    | UndefinedId             // 'undefined_id'
    | UnknownError            // 'unknown_error'
    | UndefinedObject         // 'undefined_object'
    | InvalidArray            // 'invalid_array'
    | ItemNotFound(id: string) // `item_not_found: ${JSON.stringify(id)}`
    | NotFound                // 'item_not_found'
    | InvalidIdAndObservable  // 'invalid_id_and_observable'
    | InvalidObservable       // 'invalid_observable'
    | TypeError               // a property read or write on a value that has none
    | CallStackExceeded       // unbounded recursion through `remove`

  /** The constructor's `ObservableStateOptions`; `None` is an option left
      unset. */
  datatype Options = Options(
    idProperty: string,
    singleEntityMode: bool,
    encoding: Option<string>,
    ttl: Option<int>)

  /** The foreign encoders behind `base64`, `md5` and `sha1`. */
  datatype Codecs = Codecs(base64: string -> string, md5: string -> string, sha1: string -> string)

  datatype Config = Config(
    idProperty: string,
    singleEntityMode: bool,
    encoding: string,
    ttl: int,
    codecs: Codecs)

  /** One hour in milliseconds: the time-to-live used when none is given. */
  const DefaultTtl: int := 60 * 60 * 1000

  /** The identity every key is derived from in single-entity mode. */
  const SingleEntityId: Json := Str("single-entity")

  /** The constructor: a falsy `encoding` becomes `plain` and a falsy `ttl`
      becomes one hour. */
  function Configure(o: Options, codecs: Codecs): (c: Config)
    ensures c.idProperty == o.idProperty && c.singleEntityMode == o.singleEntityMode
    ensures c.encoding != "" && c.ttl != 0
    ensures o.encoding == None || o.encoding == Some("") ==> c.encoding == "plain"
    ensures o.encoding.Some? && o.encoding.value != "" ==> c.encoding == o.encoding.value
    ensures o.ttl == None || o.ttl == Some(0) ==> c.ttl == DefaultTtl
    ensures o.ttl.Some? && o.ttl.value != 0 ==> c.ttl == o.ttl.value
  {
    Config(
      o.idProperty,
      o.singleEntityMode,
      match o.encoding { case Some(e) => if e == "" then "plain" else e case None => "plain" },
      match o.ttl { case Some(t) => if t == 0 then DefaultTtl else t case None => DefaultTtl },
      codecs)
  }

  predicate IsCodec(encoding: string) {
    encoding == "base64" || encoding == "md5" || encoding == "sha1"
  }

  /** The encoding step applied to a JSON text; `plain` and unrecognised
      encodings leave the text as it is. */
  function Encode(c: Config, text: string): (r: string)
    ensures !IsCodec(c.encoding) ==> r == text
  {
    if c.encoding == "plain" then text
    else if c.encoding == "base64" then c.codecs.base64(text)
    else if c.encoding == "md5" then c.codecs.md5(text)
    else if c.encoding == "sha1" then c.codecs.sha1(text)
    else text
  }

  /** The key of the one entry a single-entity store can hold. */
  function SingleKey(c: Config): string
  {
    Encode(c, Quote("single-entity"))
  }

  /** `generateStateIdInternal`: the key of an identity. In keyed mode a falsy
      identity is refused with `undefined_id` and one without JSON text with
      `unknown_error`; in single-entity mode the identity is ignored. */
  function KeyOf(c: Config, id: Json): (r: Result<string, Error>)
    ensures !c.singleEntityMode && !Truthy(id) <==> r == Failure(UndefinedId)
    ensures r == Failure(UnknownError) <==> !c.singleEntityMode && Truthy(id) && Stringify(id).None?
    ensures r.Failure? ==> r.error == UndefinedId || r.error == UnknownError
    ensures c.singleEntityMode ==> r == Success(SingleKey(c))
    ensures r.Success? && !c.singleEntityMode ==> Stringify(id).Some? && r.value == Encode(c, Stringify(id).value)
  {
    if !Truthy(id) && !c.singleEntityMode then Failure(UndefinedId)
    else
      match Stringify(if c.singleEntityMode then SingleEntityId else id)
      case None => Failure(UnknownError)
      case Some(text) => Success(Encode(c, text))
  }

  /** Key derivation depends on nothing but the identity's JSON text (and its
      truthiness), so equal identities share a key under every encoding. */
  lemma KeyDeterministic(c: Config, a: Json, b: Json)
    requires Stringify(a) == Stringify(b) && Truthy(a) == Truthy(b)
    ensures KeyOf(c, a) == KeyOf(c, b)
  {
  }

  /** In single-entity mode every identity, `undefined` included, addresses
      the same key. */
  lemma SingleEntityOneKey(c: Config, a: Json, b: Json)
    requires c.singleEntityMode
    ensures KeyOf(c, a) == KeyOf(c, b) == Success(SingleKey(c))
  {
  }

  /** With `plain` (or an unrecognised) encoding in keyed mode, two exact
      identities share a key only when they are equal. */
  lemma PlainKeysInjective(c: Config, a: Json, b: Json)
    requires !c.singleEntityMode && !IsCodec(c.encoding)
    requires Exact(a) && Exact(b)
    requires KeyOf(c, a).Success? && KeyOf(c, a) == KeyOf(c, b)
    ensures a == b
  {
    JsonParse.StringifyInjective(a, b);
  }

  /** A key is itself a string identity; in keyed `plain` mode its own key is
      its JSON text, which is never the key itself. */
  lemma KeyOfKeyDiffers(c: Config, k: string)
    requires !c.singleEntityMode && !IsCodec(c.encoding) && k != ""
    ensures KeyOf(c, Str(k)) == Success(Quote(k))
    ensures Quote(k) != k
  {
  }
}

=== FILE: rx_props.dfy ===
/** Properties of the rxjs engine's tables: the invariants every operation
    keeps, and what the invariants imply about expiry, existence checks and
    reads. */
module RxProps {
  import opened Wrappers
  import opened Json
  import opened RxKeys
  import opened RxCache

  // ------------------------------------------------------------ invariants

  /** A new instance starts valid. */
  lemma EmptyValid(c: Config)
    ensures Valid(c, Empty) && Count(Empty) == 0
  {
  }

  /** Writing a snapshot under a key keeps the invariants, provided a
      single-entity store writes its one key. */
  lemma PutKeepsValid(c: Config, t: Tables, k: string, snap: Snapshot)
    requires Valid(c, t)
    requires c.singleEntityMode ==> k == SingleKey(c)
    ensures Valid(c, Put(t, k, snap))
    ensures Latest(Put(t, k, snap), k) == Some(snap.data)
  {
    var r := Put(t, k, snap);
    assert Paired(r);
    forall j | j in r.observables
      ensures r.observables[j].lastUpdated.None?
    {
      if j != k {
        assert j in t.observables;
      }
    }
    forall j | j in r.subjects
      ensures r.subjects[j].latest.Some?
    {
      if j != k {
        assert j in t.subjects;
      }
    }
    assert OneKey(c, r);
  }

  lemma AddKeepsValid(c: Config, t: Tables, now: int, data: Json)
    requires Valid(c, t) && AddToState(c, t, now, data).Success?
    ensures Valid(c, AddToState(c, t, now, data).value.0)
  {
    PutKeepsValid(c, t, KeyOf(c, IdOf(c, data)).value, Snapshot(data, now));
  }

  /** A subscription to `set` keeps the invariants, whether it runs to the
      end or stops at a failing write. */
  lemma {:induction false} SetStreamKeepsValid(c: Config, t: Tables, ems: seq<Emission>)
    requires Valid(c, t)
    ensures Valid(c, SetStream(c, t, ems).tables)
    decreases |ems|
  {
    if |ems| > 0 {
      var step := AddToState(c, t, ems[0].at, ems[0].value);
      if step.Success? {
        AddKeepsValid(c, t, ems[0].at, ems[0].value);
        SetStreamKeepsValid(c, step.value.0, ems[1..]);
      }
    }
  }

  /** A subscription stops at the first emission `addToState` refuses, with
      that emission's error, on the tables the earlier writes left. */
  lemma {:induction false} SetStreamStopsAtFailure(c: Config, t: Tables, ems: seq<Emission>)
    ensures var r := SetStream(c, t, ems);
            r.failure.Some? ==>
              var e := ems[|r.written|];
              AddToState(c, r.tables, e.at, e.value) == Failure(r.failure.value)
    decreases |ems|
  {
    if |ems| > 0 {
      var step := AddToState(c, t, ems[0].at, ems[0].value);
      if step.Success? {
        SetStreamStopsAtFailure(c, step.value.0, ems[1..]);
      }
    }
  }

  lemma CreateKeepsValid(c: Config, t: Tables, now: int, obj: Json, id: Json)
    requires Valid(c, t) && CreateEmission(c, t, now, obj, id).Success?
    ensures Valid(c, CreateEmission(c, t, now, obj, id).value.0)
  {
    var r := CreateEmission(c, t, now, obj, id);
    PutKeepsValid(c, t, KeyOf(c, id).value, Snapshot(r.value.1, now));
  }

  lemma WriteItemKeepsValid(c: Config, t: Tables, now: int, obj: Json, replaceExisting: bool)
    requires Valid(c, t) && WriteItem(c, t, now, obj, replaceExisting).Success?
    ensures Valid(c, WriteItem(c, t, now, obj, replaceExisting).value.0)
  {
    var r := WriteItem(c, t, now, obj, replaceExisting);
    if r.value.1.Some? {
      PutKeepsValid(c, t, KeyOf(c, IdOf(c, obj)).value, Snapshot(obj, now));
    }
  }

  lemma {:induction false} WriteEachKeepsValid(c: Config, t: Tables, items: seq<Json>, ats: seq<int>, replaceExisting: bool)
    requires Valid(c, t) && |ats| == |items|
    ensures Valid(c, WriteEach(c, t, items, ats, replaceExisting).tables)
    decreases |items|
  {
    if |items| > 0 {
      var step := WriteItem(c, t, ats[0], items[0], replaceExisting);
      if step.Success? {
        WriteItemKeepsValid(c, t, ats[0], items[0], replaceExisting);
        WriteEachKeepsValid(c, step.value.0, items[1..], ats[1..], replaceExisting);
      }
    }
  }

  /** Every snapshot in `written` is one of `items` with the time that item
      was handled. */
  ghost predicate StampedFrom(written: seq<Snapshot>, items: seq<Json>, ats: seq<int>)
    requires |ats| == |items|
  {
    forall i :: 0 <= i < |written| ==> WrittenAt(written[i], items, ats)
  }

  /** `snap` is some item with the time that item was handled. */
  ghost predicate WrittenAt(snap: Snapshot, items: seq<Json>, ats: seq<int>)
    requires |ats| == |items|
  {
    exists j :: 0 <= j < |items| && snap == Snapshot(items[j], ats[j])
  }

  /** Every snapshot one `setMultiple` emission writes is one of its items,
      stamped with the time that item was handled. */
  lemma {:induction false} WriteEachWritesItems(c: Config, t: Tables, items: seq<Json>, ats: seq<int>, replaceExisting: bool)
    requires |ats| == |items|
    ensures StampedFrom(WriteEach(c, t, items, ats, replaceExisting).written, items, ats)
    decreases |items|
  {
    if |items| > 0 {
      var step := WriteItem(c, t, ats[0], items[0], replaceExisting);
      if step.Success? {
        var rest := WriteEach(c, step.value.0, items[1..], ats[1..], replaceExisting);
        WriteEachWritesItems(c, step.value.0, items[1..], ats[1..], replaceExisting);
        var here := if step.value.1.Some? then [step.value.1.value] else [];
        assert WriteEach(c, t, items, ats, replaceExisting).written == here + rest.written;
        StampedPrepend(here, rest.written, items, ats);
      }
    }
  }

  /** The step of `WriteEachWritesItems`: writes of the first item, then
      writes of the remaining items. */
  lemma StampedPrepend(here: seq<Snapshot>, rest: seq<Snapshot>, items: seq<Json>, ats: seq<int>)
    requires |items| > 0 && |ats| == |items|
    requires forall i :: 0 <= i < |here| ==> here[i] == Snapshot(items[0], ats[0])
    requires StampedFrom(rest, items[1..], ats[1..])
    ensures StampedFrom(here + rest, items, ats)
  {
    var w := here + rest;
    forall i | 0 <= i < |w|
      ensures WrittenAt(w[i], items, ats)
    {
      if i < |here| {
        assert w[i] == Snapshot(items[0], ats[0]);
      } else {
        assert WrittenAt(rest[i - |here|], items[1..], ats[1..]);
        var j :| 0 <= j < |items[1..]| && rest[i - |here|] == Snapshot(items[1..][j], ats[1..][j]);
        assert w[i] == Snapshot(items[j + 1], ats[j + 1]);
      }
    }
  }

  lemma SetMultipleKeepsValid(c: Config, t: Tables, objects: Json, ats: seq<int>, replaceExisting: bool)
    requires Valid(c, t) && (objects.Arr? ==> |ats| == |objects.elems|)
    ensures Valid(c, SetMultipleEmission(c, t, objects, ats, replaceExisting).tables)
  {
    if objects.Arr? {
      WriteEachKeepsValid(c, t, objects.elems, ats, replaceExisting);
    }
  }

  // ------------------------------------------------------ writes that land

  /** The entry `snap`'s data addresses is in the tables. */
  ghost predicate Landed(c: Config, snap: Snapshot, t: Tables) {
    KeyOf(c, IdOf(c, snap.data)).Success? && KeyOf(c, IdOf(c, snap.data)).value in t.observables
  }

  /** Every snapshot in `written` has landed in `t`. */
  ghost predicate AllLanded(c: Config, written: seq<Snapshot>, t: Tables) {
    forall i :: 0 <= i < |written| ==> Landed(c, written[i], t)
  }

  /** The step of the landing lemmas: a snapshot that landed before the
      rest of the run, which only adds keys. */
  lemma LandedPrepend(c: Config, here: seq<Snapshot>, rest: seq<Snapshot>, mid: Tables, t: Tables)
    requires forall i :: 0 <= i < |here| ==> Landed(c, here[i], mid)
    requires mid.observables.Keys <= t.observables.Keys
    requires AllLanded(c, rest, t)
    ensures AllLanded(c, here + rest, t)
  {
    var w := here + rest;
    forall i | 0 <= i < |w|
      ensures Landed(c, w[i], t)
    {
      if i < |here| {
        assert w[i] == here[i];
      } else {
        assert w[i] == rest[i - |here|];
      }
    }
  }

  /** A subscription to `set` only adds entries, and every value it wrote is
      in the tables it leaves. */
  lemma {:induction false} SetStreamLands(c: Config, t: Tables, ems: seq<Emission>)
    ensures var r := SetStream(c, t, ems);
            t.observables.Keys <= r.tables.observables.Keys && AllLanded(c, r.written, r.tables)
    decreases |ems|
  {
    if |ems| > 0 {
      var step := AddToState(c, t, ems[0].at, ems[0].value);
      if step.Success? {
        var t1 := step.value.0;
        var rest := SetStream(c, t1, ems[1..]);
        SetStreamLands(c, t1, ems[1..]);
        assert Landed(c, step.value.1, t1);
        LandedPrepend(c, [step.value.1], rest.written, t1, rest.tables);
      }
    }
  }

  /** A `setMultiple` emission only adds entries, and every item it wrote is
      in the tables it leaves. */
  lemma {:induction false} WriteEachLands(c: Config, t: Tables, items: seq<Json>, ats: seq<int>, replaceExisting: bool)
    requires |ats| == |items|
    ensures var r := WriteEach(c, t, items, ats, replaceExisting);
            t.observables.Keys <= r.tables.observables.Keys && AllLanded(c, r.written, r.tables)
    decreases |items|
  {
    if |items| > 0 {
      var step := WriteItem(c, t, ats[0], items[0], replaceExisting);
      if step.Success? {
        var t1 := step.value.0;
        var rest := WriteEach(c, t1, items[1..], ats[1..], replaceExisting);
        WriteEachLands(c, t1, items[1..], ats[1..], replaceExisting);
        var here := if step.value.1.Some? then [step.value.1.value] else [];
        assert forall i :: 0 <= i < |here| ==> Landed(c, here[i], t1);
        LandedPrepend(c, here, rest.written, t1, rest.tables);
      }
    }
  }

  /** With `replaceExisting`, a `setMultiple` emission that does not throw
      writes every item, in order, each at the time it was handled. */
  lemma {:induction false} WriteEachWritesAll(c: Config, t: Tables, items: seq<Json>, ats: seq<int>)
    requires |ats| == |items|
    ensures var r := WriteEach(c, t, items, ats, true);
            r.failure.None? ==> |r.written| == |items| && forall i :: 0 <= i < |items| ==> r.written[i] == Snapshot(items[i], ats[i])
    decreases |items|
  {
    if |items| > 0 {
      var step := WriteItem(c, t, ats[0], items[0], true);
      if step.Success? {
        var rest := WriteEach(c, step.value.0, items[1..], ats[1..], true);
        WriteEachWritesAll(c, step.value.0, items[1..], ats[1..]);
        assert WriteEach(c, t, items, ats, true).written == [Snapshot(items[0], ats[0])] + rest.written;
      }
    }
  }

  /** An array emission of `setMultiple` with `replaceExisting` writes every
      item in order, unless one throws; what it writes is in the tables it
      leaves, and no entry is lost. */
  lemma SetMultipleWrites(c: Config, t: Tables, items: seq<Json>, ats: seq<int>)
    requires |ats| == |items|
    ensures var r := SetMultipleEmission(c, t, Arr(items), ats, true);
            && t.observables.Keys <= r.tables.observables.Keys
            && AllLanded(c, r.written, r.tables)
            && (r.failure.None? ==> |r.written| == |items| && forall i :: 0 <= i < |items| ==> r.written[i] == Snapshot(items[i], ats[i]))
  {
    var r := SetMultipleEmission(c, t, Arr(items), ats, true);
    assert r == WriteEach(c, t, items, ats, true);
    WriteEachLands(c, t, items, ats, true);
    WriteEachWritesAll(c, t, items, ats);
  }

  lemma RemoveKeepsValid(c: Config, t: Tables, now: int, id: Json)
    requires Valid(c, t) && Remove(c, t, now, id).Success?
    ensures Valid(c, Remove(c, t, now, id).value)
  {
  }

  // ----------------------------------------------------------------- expiry

  /** Records never carry `lastUpdated`, so no entry ever expires: the
      identity's key is its key, except that in keyed mode the expiry test of
      a present entry throws `undefined_id`. */
  lemma StateIdUnstamped(c: Config, t: Tables, now: int, id: Json)
    requires Unstamped(t)
    ensures StateId(c, t, now, id) ==
              if KeyOf(c, id).Failure? || KeyOf(c, id).value !in t.observables || c.singleEntityMode
              then KeyOf(c, id)
              else Failure(UndefinedId)
  {
  }

  /** In keyed mode no identity is ever reported present. */
  lemma KeyedNeverExists(c: Config, t: Tables, now: int, id: Json)
    requires !c.singleEntityMode && Unstamped(t)
    ensures Exists(c, t, now, id) != Success(true)
  {
    StateIdUnstamped(c, t, now, id);
  }

  /** In single-entity mode `exists` reports whether the one entry is
      there, whatever identity it is given. */
  lemma SingleExists(c: Config, t: Tables, now: int, id: Json)
    requires c.singleEntityMode && Valid(c, t)
    ensures Exists(c, t, now, id) == Success(SingleKey(c) in t.observables)
  {
    StateIdUnstamped(c, t, now, id);
  }

  /** In keyed mode `setMultiple(…, replaceExisting = false)` never skips an
      item: its guard either lets the write through or throws. */
  lemma KeyedGuardNeverSkips(c: Config, t: Tables, now: int, k: string, replaceExisting: bool)
    requires !c.singleEntityMode && Unstamped(t)
    ensures WriteGuard(c, t, now, k, replaceExisting) != Success(false)
  {
    KeyedNeverExists(c, t, now, Str(k));
  }

  /** The `replaceExisting = false` guard of `setMultiple` encodes the item's
      key a second time: in keyed `plain` mode it consults the quoted key
      `Quote(k)`, never `k` itself, and throws `undefined_id` when that quoted
      key is present. */
  lemma GuardDoubleEncodes(c: Config, t: Tables, now: int, k: string)
    requires !c.singleEntityMode && !IsCodec(c.encoding) && Unstamped(t) && k != ""
    ensures WriteGuard(c, t, now, k, false) ==
              if Quote(k) in t.observables then Failure(UndefinedId) else Success(true)
  {
    KeyOfKeyDiffers(c, k);
    StateIdUnstamped(c, t, now, Str(k));
  }

  /** In keyed mode a read of a present entry throws `undefined_id`, so
      `get` never answers from the cache. */
  lemma KeyedGetNeverCached(c: Config, t: Tables, now: int, id: Json, src: Source)
    requires !c.singleEntityMode && Unstamped(t)
    ensures GetItem(c, t, now, id, src).Success? ==> GetItem(c, t, now, id, src).value.Loading?
    ensures KeyOf(c, id).Success? && KeyOf(c, id).value in t.observables ==>
              GetItem(c, t, now, id, src) == Failure(UndefinedId)
  {
    StateIdUnstamped(c, t, now, id);
  }

  /** In keyed mode `getMultiple` either throws or delivers nothing: a present
      id throws while the keys are derived, and a missing one is dropped or
      fails the call. */
  lemma {:induction false} KeyedGetMultipleEmpty(c: Config, t: Tables, now: int, ids: seq<Json>, breakOnNotFound: bool)
    requires !c.singleEntityMode && Unstamped(t)
    ensures GetMultiple(c, t, now, Arr(ids), breakOnNotFound).Success? ==>
              GetMultiple(c, t, now, Arr(ids), breakOnNotFound).value == []
  {
    var keys := StateIds(c, t, now, ids);
    if keys.Success? {
      forall i | 0 <= i < |ids|
        ensures keys.value[i] !in t.observables
      {
        StateIdUnstamped(c, t, now, ids[i]);
      }
      SelectAbsent(t, ids, keys.value, breakOnNotFound);
    }
  }

  /** Selecting only missing keys yields nothing, or `item_not_found` for the
      first of them. */
  lemma {:induction false} SelectAbsent(t: Tables, ids: seq<Json>, keys: seq<string>, breakOnNotFound: bool)
    requires |keys| == |ids|
    requires forall i :: 0 <= i < |keys| ==> keys[i] !in t.observables
    ensures Select(t, ids, keys, breakOnNotFound) ==
              if breakOnNotFound && |keys| > 0 then Failure(ItemNotFound(TextOrUndefined(ids[0]))) else Success([])
    decreases |keys|
  {
    if |keys| > 0 && !breakOnNotFound {
      SelectAbsent(t, ids[1..], keys[1..], breakOnNotFound);
    }
  }

  /** The keys among `keys` that have a record, in order. */
  function PresentKeys(t: Tables, keys: seq<string>): (r: seq<string>)
    ensures |r| <= |keys|
    ensures forall i :: 0 <= i < |r| ==> r[i] in t.observables && r[i] in keys
  {
    if |keys| == 0 then []
    else if keys[0] in t.observables then [keys[0]] + PresentKeys(t, keys[1..])
    else PresentKeys(t, keys[1..])
  }

  /** Without `breakOnNotFound`, `getMultiple` never fails after the keys are
      derived and delivers the entries of the present keys, in input
      order. */
  lemma {:induction false} SelectInOrder(t: Tables, ids: seq<Json>, keys: seq<string>)
    requires |keys| == |ids|
    ensures Select(t, ids, keys, false).Success?
    ensures var r := Select(t, ids, keys, false).value;
            var present := PresentKeys(t, keys);
            |r| == |present| && forall i :: 0 <= i < |r| ==> r[i] == Latest(t, present[i])
    decreases |keys|
  {
    if |keys| > 0 {
      SelectInOrder(t, ids[1..], keys[1..]);
    }
  }

  /** `getMultiple` derives every key before it looks anything up, and the
      first id whose key derivation throws decides the error. */
  lemma {:induction false} StateIdsFirstFailure(c: Config, t: Tables, now: int, ids: seq<Json>)
    requires StateIds(c, t, now, ids).Failure?
    ensures exists i :: 0 <= i < |ids| &&
              StateId(c, t, now, ids[i]) == Failure(StateIds(c, t, now, ids).error) &&
              forall j :: 0 <= j < i ==> StateId(c, t, now, ids[j]).Success?
    decreases |ids|
  {
    if StateId(c, t, now, ids[0]).Success? {
      var rest := ids[1..];
      StateIdsFirstFailure(c, t, now, rest);
      var i :| 0 <= i < |rest| && StateId(c, t, now, rest[i]) == Failure(StateIds(c, t, now, rest).error) &&
                forall j :: 0 <= j < i ==> StateId(c, t, now, rest[j]).Success?;
      assert forall j :: 1 <= j <= i ==> ids[j] == rest[j - 1];
      assert ids[i + 1] == rest[i];
    }
  }

  // ----------------------------------------------------------------- reads

  /** Single-entity round trip: a truthy value written to a valid store is
      what the next `get` replays, under any identity and with any source. */
  lemma SingleRoundTrip(c: Config, t: Tables, now: int, later: int, data: Json, id: Json, src: Source)
    requires c.singleEntityMode && Valid(c, t) && Truthy(data)
    ensures AddToState(c, t, now, data).Success?
    ensures var t' := AddToState(c, t, now, data).value.0;
            Valid(c, t') && Count(t') == 1 &&
            GetItem(c, t', later, id, src) == Success(Cached(Some(data))) &&
            Exists(c, t', later, id) == Success(true)
  {
    StateIdUnstamped(c, t, now, IdOf(c, data));
    var t' := AddToState(c, t, now, data).value.0;
    AddKeepsValid(c, t, now, data);
    StateIdUnstamped(c, t', later, id);
    OneKeyCount(c, t');
    assert SingleKey(c) in t'.observables;
  }

  /** A single-entity store holds at most one entry. */
  lemma OneKeyCount(c: Config, t: Tables)
    requires c.singleEntityMode && OneKey(c, t)
    ensures Count(t) <= 1
    ensures SingleKey(c) in t.observables ==> Count(t) == 1
  {
    var ks := t.observables.Keys;
    if SingleKey(c) in ks {
      assert ks == {SingleKey(c)};
    } else {
      assert ks == {};
    }
  }

  /** Keyed first write: a truthy value whose identity has a key not yet in
      the tables is stored under that key and replayed from there. */
  lemma KeyedFirstWrite(c: Config, t: Tables, now: int, data: Json)
    requires !c.singleEntityMode && Valid(c, t) && Truthy(data)
    requires KeyOf(c, IdOf(c, data)).Success? && KeyOf(c, IdOf(c, data)).value !in t.observables
    ensures AddToState(c, t, now, data).Success?
    ensures var k := KeyOf(c, IdOf(c, data)).value;
            var t' := AddToState(c, t, now, data).value.0;
            Valid(c, t') && Count(t') == Count(t) + 1 && Latest(t', k) == Some(data)
  {
    StateIdUnstamped(c, t, now, IdOf(c, data));
    AddKeepsValid(c, t, now, data);
  }

  /** `get` without a source for a missing entry loads the value `undefined`,
      whose write is refused with `undefined_object`; the tables stay as
      they were. */
  lemma GetWithoutSource(c: Config, t: Tables, now: int, id: Json)
    requires KeyOf(c, id).Success? && KeyOf(c, id).value !in t.observables
    ensures GetItem(c, t, now, id, Value(Undefined)) == Success(Loading([Undefined]))
    ensures SetStream(c, t, [Emission(Undefined, now)]) == Run(t, [], Some(UndefinedObject))
  {
  }

  /** A keyed-mode session: `set({id: 1})` stores the object, and `get(1)`
      then throws `undefined_id`. */
  lemma KeyedSetThenGet(c: Config, now: int, later: int)
    requires !c.singleEntityMode && c.idProperty == "id"
    ensures var obj := Obj([Prop("id", Num(1))]);
            var w := SetStream(c, Empty, [Emission(obj, now)]);
            w.failure.None? && Count(w.tables) == 1 &&
            GetItem(c, w.tables, later, Num(1), Value(Undefined)) == Failure(UndefinedId)
  {
    var obj := Obj([Prop("id", Num(1))]);
    assert IdOf(c, obj) == Num(1);
    assert KeyOf(c, Num(1)).Success?;
    StateIdUnstamped(c, Empty, now, Num(1));
    EmptyValid(c);
    var w := SetStream(c, Empty, [Emission(obj, now)]);
    SetStreamKeepsValid(c, Empty, [Emission(obj, now)]);
    KeyedGetNeverCached(c, w.tables, later, Num(1), Value(Undefined));
  }

  // ---------------------------------------------------------------- deletes

  /** Removing an identity whose key is missing changes nothing. */
  lemma RemoveAbsent(c: Config, t: Tables, now: int, id: Json)
    requires KeyOf(c, id).Success? && KeyOf(c, id).value !in t.observables && KeyOf(c, id).value !in t.subjects
    ensures Remove(c, t, now, id) == Success(t)
  {
    var k := KeyOf(c, id).value;
    assert StateId(c, t, now, id) == Success(k);
    MinusAbsent(t.subjects, k);
    MinusAbsent(t.observables, k);
  }

  lemma MinusAbsent<V>(m: map<string, V>, k: string)
    requires k !in m
    ensures m - {k} == m
  {
    assert (m - {k}).Keys == m.Keys;
  }

  /** In keyed mode `remove` never deletes anything: a present entry's
      expiry test throws `undefined_id` first, and an absent one leaves the
      tables as they were. */
  lemma KeyedRemoveNeverDeletes(c: Config, t: Tables, now: int, id: Json)
    requires !c.singleEntityMode && Valid(c, t)
    ensures Remove(c, t, now, id).Success? ==> Remove(c, t, now, id).value == t
    ensures KeyOf(c, id).Success? && KeyOf(c, id).value in t.observables ==> Remove(c, t, now, id) == Failure(UndefinedId)
  {
    StateIdUnstamped(c, t, now, id);
    if Remove(c, t, now, id).Success? {
      RemoveAbsent(c, t, now, id);
    }
  }

  /** After a successful `remove`, the identity is no longer present. */
  lemma RemoveThenAbsent(c: Config, t: Tables, now: int, later: int, id: Json)
    requires Remove(c, t, now, id).Success?
    ensures Exists(c, Remove(c, t, now, id).value, later, id) == Success(false)
    ensures Count(Remove(c, t, now, id).value) <= Count(t)
  {
    var k := KeyOf(c, id).value;
    var t' := Remove(c, t, now, id).value;
    assert k !in t'.observables;
    assert t'.observables.Keys <= t.observables.Keys;
    SubsetCard(t'.observables.Keys, t.observables.Keys);
  }

  lemma SubsetCard<T>(a: set<T>, b: set<T>)
    requires a <= b
    ensures |a| <= |b|
  {
    assert b == a + (b - a);
  }

  /** `setMultiple(…, clearAll = true)` starts from empty tables, whatever
      the tables held. */
  lemma ClearAllEmpties(c: Config, t: Tables)
    ensures Count(BeginSetMultiple(t, true)) == 0 && Valid(c, BeginSetMultiple(t, true))
    ensures Count(Clear(t)) == 0 && Valid(c, Clear(t))
  {
  }
}

=== FILE: wrappers.dfy ===
/** Failure-compatible Option and Result types shared by every module of the model. */
module Wrappers {

  datatype Option<+T> = None | Some(value: T) {
    predicate IsFailure() {
      None?
    }

    function PropagateFailure<U>(): Option<U>
      requires None?
    {
      None
    }

    function Extract(): T
      requires Some?
    {
      value
    }
  }

  /** A value or the error a JavaScript `throw` (or an erroring stream) would deliver. */
  datatype Result<+R, +E> = Success(value: R) | Failure(error: E) {
    predicate IsFailure() {
      Failure?
    }

    function PropagateFailure<U>(): Result<U, E>
      requires Failure?
    {
      Failure(error)
    }

    function Extract(): R
      requires Success?
    {
      value
    }
  }
}
